=== FILE: README.md ===
# AgendaLei booking rules in Dafny

AgendaLei is a small React Native app a school uses to book its laboratory.
Teachers register, pick a day within the coming week and one of twelve fixed
periods, and may cancel up to 24 hours ahead. The app has no server. Its
decision logic is a handful of pure rules spread over a date-utility file,
a record store and the screens. This project models that logic and proves
what it promises. The parts are:

- **Date and timetable utilities** (module `DateUtils`, built on `Calendar`
  and `Text`):
  - the `YYYY-MM-DD` and `DD/MM/YYYY` formats;
  - the past-day predicate;
  - the inclusive eight-day booking window;
  - the 24-hour cancellation rule;
  - the twelve-period timetable;
  - the slot-availability test;
  - the per-teacher count of bookings in the current Sunday-to-Saturday week.
- **The booking form's rule engine** (module `BookingForm`):
  - the form schema;
  - the date-picker gate;
  - `checkBookingConflicts`, which sets the edited booking aside, applies a
    weekly quota of 2 to new bookings only, then rejects a same-day,
    same-start collision;
  - the record that submitting saves. The rules check the bookings the
    form loaded when it opened, while the save reads the store afresh. When
    nothing was saved in between, a saved submission keeps three store
    invariants: no day and start time booked twice, distinct ids, and head
    counts in [1, 20]. When another screen saved a booking in between, a
    double booking gets through (see "## Findings");
  - the delete gate.
- **The record store** (module `Store`):
  - `saveBooking`, an update-by-id merge or an append under a fresh id;
  - `deleteBooking`, `getBookingById` and `getBookingsByTeacher`;
  - `saveTeacher`, an upsert by email.
- **The derived views:**
  - the home screen's three upcoming bookings and its search for the next
    five weekdays with a free period (module `Home`);
  - the calendar's dot markers, the day's occupancy table and the day-press
    gate (module `CalendarScreen`);
  - the "my bookings" list, future bookings first, then past ones, and its
    cancel gate (module `MyBookings`).

**How time is represented:**
- An instant is an integer count of milliseconds since local midnight of
  1970-01-01.
- A calendar day is the integer day index `t / 86_400_000`.
- The weekday is `(day + 4) % 7`, with 0 for Sunday, as `Date.getDay` returns
  it.
- Dates are the proleptic Gregorian calendar (`Calendar.CivilFromDay`). It
  is proved to be a bijection between day indices and valid
  (year, month, day) triples, so two instants have the same calendar key
  exactly when they fall on the same day.

**How the environment is handled:**
- "Now", fresh ids, creation stamps and the user's answer to a
  confirmation dialog are explicit arguments.
- The booking form's rules see the list it loaded when it opened. The
  store operations see the sequence they read. Each operation returns the
  sequence it writes back.

Generic sequence facts live in `Seqs`:
- `Filter`, `Find` and `FindIndex`, the models of `Array.prototype.filter`,
  `find` and `findIndex`;
- lemmas about concatenation, partition and order.

`Sorting` holds a stable insertion sort keyed by an integer, the model of
`sort` with a numeric comparator.

## Model

| member | source | states |
|---|---|---|
| Text.PadStart2 | AgendaLei/src/utils/dateUtils.js:5-6 | `padStart(2, '0')` leaves strings of two or more characters alone and left-fills shorter ones with zeros up to two characters |
| Text.TwoDigits | AgendaLei/src/utils/dateUtils.js:5-6 | a day or month below 100 becomes exactly two digits that read back as the same number |
| Text.IntToString | AgendaLei/src/utils/dateUtils.js:7-9 | `String` of the year is a minus sign exactly for negative years followed by digits, and four characters for a four-digit year |
| Text.ParseIntRoundTrip | AgendaLei/src/utils/dateUtils.js:7-9 | the year's rendering reads back as the same integer |
| Text.ParseNatRoundTrip | AgendaLei/src/utils/dateUtils.js:7 | the decimal rendering of a year reads back as the same number |
| Calendar.StartOfDay | AgendaLei/src/utils/dateUtils.js:44-45 | `setHours(0, 0, 0, 0)` gives the latest midnight not after the instant, on the same day |
| Calendar.EndOfDay | AgendaLei/src/utils/dateUtils.js:41-42 | `setHours(23, 59, 59, 999)` gives the last millisecond of the instant's day, not before the instant |
| Calendar.Weekday | AgendaLei/src/utils/dateUtils.js:113 | `getDay()` is a weekday number in 0..6 |
| Calendar.ThursdaysFromEpoch | AgendaLei/src/utils/dateUtils.js:113 | `getDay()` is 4 (Thursday) exactly on the days a whole number of weeks from 1970-01-01 |
| Calendar.WeekStart | AgendaLei/src/utils/dateUtils.js:112-114 | moving back by `getDay()` days lands on the Sunday of the week holding the day, at most six days earlier |
| Calendar.SameWeekIffSameStart | AgendaLei/src/utils/dateUtils.js:112-119 | two days share a Sunday exactly when the second lies in the seven days from the first's Sunday |
| Calendar.CivilFromDay | AgendaLei/src/utils/dateUtils.js:4-7 | `getFullYear`, `getMonth() + 1` and `getDate` of a day give a valid calendar date that maps back to the same day |
| Calendar.CivilRoundTrip | AgendaLei/src/utils/dateUtils.js:4-7 | every valid calendar date is the date of exactly the day it names |
| Calendar.CivilFromDayInjective | AgendaLei/src/utils/dateUtils.js:13-19 | two days have the same calendar date exactly when they are the same day |
| DateUtils.CalendarKey | AgendaLei/src/utils/dateUtils.js:13-19 | the key is `year-MM-DD` with two-digit month and day, ten characters for four-digit years, and reads back as the same date |
| DateUtils.DisplayDate | AgendaLei/src/utils/dateUtils.js:3-10 | the display string is `DD/MM/year` with two-digit day and month, and reads back as the same date |
| DateUtils.FormatDateForCalendar | AgendaLei/src/utils/dateUtils.js:13-19 | the key of an instant reads back as its day's calendar date |
| DateUtils.GetCurrentDate | AgendaLei/src/utils/dateUtils.js:34-37 | today's key reads back as the calendar date of the clock's day |
| DateUtils.CurrentDateIsToday | AgendaLei/src/utils/dateUtils.js:34-37 | today's key is the key of an instant exactly when that instant falls on today |
| DateUtils.FormatDate | AgendaLei/src/utils/dateUtils.js:3-10 | the display string of an instant reads back as its day's calendar date |
| DateUtils.CalendarKeyInjective | AgendaLei/src/utils/dateUtils.js:13-19 | two valid dates share a key exactly when they are equal, in every year |
| DateUtils.DisplayDateInjective | AgendaLei/src/utils/dateUtils.js:3-10 | two valid dates render alike exactly when they are equal |
| DateUtils.SameKeyIffSameDay | AgendaLei/src/utils/dateUtils.js:13-19 | two instants share a calendar key exactly when they fall on the same day |
| DateUtils.KeyOfDayInjective | AgendaLei/src/utils/dateUtils.js:13-19 | two day indices share a key exactly when they are equal |
| DateUtils.IsPastDate | AgendaLei/src/utils/dateUtils.js:40-48 | a date is past exactly when its day comes before today's, whatever its time of day |
| DateUtils.IsWithinOneWeek | AgendaLei/src/utils/dateUtils.js:51-62 | a date is in the window exactly when its day is today or one of the seven days after, both ends included |
| DateUtils.CanCancelBooking | AgendaLei/src/utils/dateUtils.js:65-76 | a booking may be cancelled exactly when it is at least 86 400 000 ms away |
| DateUtils.CanCancelMonotone | AgendaLei/src/utils/dateUtils.js:65-76 | a later booking, or an earlier now, never loses the right to cancel |
| DateUtils.CancellableIsNotPast | AgendaLei/src/utils/dateUtils.js:40-76 | a booking that may be cancelled is not past |
| DateUtils.ClockString | AgendaLei/src/utils/dateUtils.js:80-91 | a minute count of the day renders as a well-formed `HH:MM` that reads back as the same count |
| DateUtils.PeriodSlot | AgendaLei/src/utils/dateUtils.js:80-91 | each period is well formed, starting and ending at the listed boundaries |
| DateUtils.TimeSlots | AgendaLei/src/utils/dateUtils.js:79-92 | the timetable has twelve well-formed periods, each starting where the previous one ends |
| DateUtils.TimeSlotsSpan | AgendaLei/src/utils/dateUtils.js:80-91 | the school day runs from minute 430 (07:10) to minute 1000 (16:40) |
| DateUtils.TimeSlotsFirstStart | AgendaLei/src/utils/dateUtils.js:80 | the first period starts at "07:10" |
| DateUtils.TimeSlotsLastEnd | AgendaLei/src/utils/dateUtils.js:91 | the last period ends at "16:40" |
| DateUtils.TimeSlotsOrdered | AgendaLei/src/utils/dateUtils.js:80-91 | start times strictly increase down the table |
| DateUtils.TimeSlotsIncreasing | AgendaLei/src/utils/dateUtils.js:79-92 | the whole table is strictly ordered by start time |
| DateUtils.TimeSlotValuesDistinct | AgendaLei/src/utils/dateUtils.js:79-92 | no two periods share a start time |
| DateUtils.OccupiesIffSameDay | AgendaLei/src/utils/dateUtils.js:96-101 | a booking matches a date's key and start time exactly when it is on the same day with the same start |
| DateUtils.IsTimeSlotAvailable | AgendaLei/src/utils/dateUtils.js:95-104 | a slot is available exactly when no booking is on the same day with the same start time |
| DateUtils.AvailableAntitone | AgendaLei/src/utils/dateUtils.js:95-104 | adding bookings never turns a taken slot free |
| DateUtils.WeekWindow | AgendaLei/src/utils/dateUtils.js:111-127 | an instant lies between Sunday 00:00:00.000 and Saturday 23:59:59.999 of today's week exactly when its day is in that week |
| DateUtils.CountTeacherBookingsInCurrentWeek | AgendaLei/src/utils/dateUtils.js:107-132 | the count is the number of the teacher's bookings in today's week, never more than the list's length |
| DateUtils.CountAppend | AgendaLei/src/utils/dateUtils.js:122-131 | one more booking raises the count by one exactly when it is the teacher's and in this week; others change nothing |
| DateUtils.BookingsOn | AgendaLei/src/screens/CalendarScreen.js:85-87 | the day's bookings are exactly the stored bookings with that key |
| BookingForm.Validate | AgendaLei/src/screens/BookingFormScreen.js:39-48 | a form passes exactly when class, activity and start time are non-empty, a date is set and the head count is a number in [1, 20]; each field fails exactly when its rule does |
| BookingForm.HandleDateChange | AgendaLei/src/screens/BookingFormScreen.js:105-116 | the field takes the picked date exactly when one was picked inside the window; otherwise it keeps its value |
| BookingForm.BookingsToCheck | AgendaLei/src/screens/BookingFormScreen.js:119-122 | in edit mode the list loses exactly the records with the edited id; otherwise it is the whole store |
| BookingForm.CheckBookingConflicts | AgendaLei/src/screens/BookingFormScreen.js:118-147 | the quota fires exactly for a new booking when the teacher already has two this week; the conflict fires exactly when the quota does not and a remaining booking has the same day and start |
| BookingForm.ConflictIsUnavailable | AgendaLei/src/screens/BookingFormScreen.js:134-144 | the conflict rule is the negated availability test on the checked list |
| BookingForm.QuotaIgnoresCandidate | AgendaLei/src/screens/BookingFormScreen.js:124-132 | whether the quota fires does not depend on the candidate date or start time |
| BookingForm.EditNeverConflictsWithItself | AgendaLei/src/screens/BookingFormScreen.js:118-147 | an edited booking that collides with no other record passes both rules |
| BookingForm.BuildDraft | AgendaLei/src/screens/BookingFormScreen.js:161-174 | the saved record carries the edited id exactly in edit mode, the teacher's fields, the form's class, activity, head count, date, start and end times unchanged, a head count in [1, 20] and status "confirmed" |
| BookingForm.Submit | AgendaLei/src/screens/BookingFormScreen.js:149-177 | an invalid form saves nothing; the quota and conflict rules judge the list loaded when the form opened; a refused booking saves nothing; otherwise the draft is saved into the store as read at submit time |
| BookingForm.SubmitNewAppends | AgendaLei/src/screens/BookingFormScreen.js:149-177 | a new booking adds one record under the fresh id with the form's day and start, every old record untouched |
| BookingForm.SubmitDoesNotRecheckWindow | AgendaLei/src/screens/BookingFormScreen.js:149-177 | submitting a date thirty days ahead, outside the picker's window, still saves it |
| BookingForm.SaveNewKeepsInvariants | AgendaLei/src/utils/asyncStorage.js:87-116 | appending a record whose day and start no stored record holds leaves every slot booked at most once, ids distinct when the fresh id is unused, and head counts in range |
| BookingForm.SaveEditKeepsInvariants | AgendaLei/src/utils/asyncStorage.js:87-116 | merging a record into the one stored under its id, when no other record holds its day and start, leaves every slot booked at most once, ids distinct, and head counts in range |
| BookingForm.SubmitKeepsStoreInvariants | AgendaLei/src/screens/BookingFormScreen.js:118-177 | when every stored record was already in the list the form loaded, a saved submission, new or edited, never books a day and start time twice, keeps ids distinct when the fresh id is unused, and keeps every head count in [1, 20] |
| BookingForm.StaleFormDoubleBooks | AgendaLei/src/screens/BookingFormScreen.js:80-82 | a form that loaded an empty list saves a booking into a store that already holds that day and period, leaving the slot booked twice |
| BookingForm.SubmitFresh | AgendaLei/src/screens/BookingFormScreen.js:118-177 | checking the rules against the store being written keeps the three store invariants on every save, and refuses exactly when a rule fires |
| BookingForm.FreshFormRefusesDoubleBooking | AgendaLei/src/screens/BookingFormScreen.js:137-144 | the fresh check refuses the double booking the stale form lets through |
| BookingForm.HandleDelete | AgendaLei/src/screens/BookingFormScreen.js:195-218 | deletion happens exactly for an edited booking with an id, at least 24 hours ahead, once confirmed; it removes exactly the records with that id |
| Store.MergeBooking | AgendaLei/src/utils/asyncStorage.js:93-95 | `{...old, ...new}` takes every field of the draft and keeps the creation stamp |
| Store.NewBooking | AgendaLei/src/utils/asyncStorage.js:101-105 | a new record is the draft under the fresh id and creation stamp |
| Store.IsTruthyId | AgendaLei/src/utils/asyncStorage.js:92 | `if (booking.id)`: a missing id and the empty string are falsy, every other id is truthy |
| Store.SaveBooking | AgendaLei/src/utils/asyncStorage.js:87-116 | with an id, the length and order stay, matching records merge and the rest are unchanged; without one, exactly one record is appended under the fresh id |
| Store.SaveBookingAbsentId | AgendaLei/src/utils/asyncStorage.js:92-98 | an update whose id is not stored changes nothing and does not append |
| Store.SaveBookingIdempotent | AgendaLei/src/utils/asyncStorage.js:92-98 | saving the same record with an id twice gives the store that saving once does |
| Store.DeleteBooking | AgendaLei/src/utils/asyncStorage.js:148-157 | exactly the records without the id survive |
| Store.DeleteBookingAbsent | AgendaLei/src/utils/asyncStorage.js:148-157 | deleting an absent id is a no-op |
| Store.DeleteBookingIdempotent | AgendaLei/src/utils/asyncStorage.js:148-157 | deleting twice is deleting once |
| Store.DeleteBookingAppend | AgendaLei/src/utils/asyncStorage.js:151 | deletion distributes over concatenation, so the survivors keep their order |
| Store.DeleteUndoesAppend | AgendaLei/src/utils/asyncStorage.js:99-110 | deleting a freshly appended booking by its id restores the store |
| Store.GetBookingById | AgendaLei/src/utils/asyncStorage.js:128-136 | the result is absent exactly when no record has the id, otherwise the first record that does |
| Store.FindAppended | AgendaLei/src/utils/asyncStorage.js:99-136 | a booking appended under a fresh id is found by that id |
| Store.GetBookingsByTeacher | AgendaLei/src/utils/asyncStorage.js:138-146 | exactly the teacher's records, in stored order; the list screen's own filter of the loaded bookings is this one |
| Store.GetBookingsByTeacherAppend | AgendaLei/src/utils/asyncStorage.js:141 | the teacher's list of a concatenation is the concatenation of the lists, so stored order is kept |
| Store.MergeTeacher | AgendaLei/src/utils/asyncStorage.js:22-24 | `{...t, ...teacher}` takes the profile's fields and keeps the id and creation stamp |
| Store.UpdateTeachers | AgendaLei/src/utils/asyncStorage.js:22-24 | teachers with the email take the profile in place; everyone else is unchanged; the length stays |
| Store.UpdateTeachersStable | AgendaLei/src/utils/asyncStorage.js:22-24 | updating with a profile the matching teachers already carry changes nothing |
| Store.SaveTeacher | AgendaLei/src/utils/asyncStorage.js:12-46 | a known email updates in place and returns a merged existing teacher; a new email appends one teacher under the fresh id and stamp |
| Store.SaveTeacherIdempotent | AgendaLei/src/utils/asyncStorage.js:12-46 | registering the same profile twice stores what registering once does |
| Seqs.Filter | AgendaLei/src/screens/MyBookingsScreen.js:37-39 | `filter` keeps exactly the elements satisfying the predicate, never more often than the list holds them |
| Seqs.Find | AgendaLei/src/screens/BookingFormScreen.js:137-140 | `find` gives nothing exactly when no element matches, otherwise the first match |
| Seqs.FindIndex | AgendaLei/src/screens/CalendarScreen.js:90 | `findIndex` gives -1 exactly when nothing matches, otherwise the first match |
| Seqs.FilterPartition | AgendaLei/src/screens/MyBookingsScreen.js:42-43 | a predicate and its complement split a list into parts that together hold every element |
| Sorting.SortBy | AgendaLei/src/screens/HomeScreen.js:50 | sorting with a numeric comparator gives a permutation ordered by the key |
| Sorting.SortedPrefixEarliest | AgendaLei/src/screens/HomeScreen.js:53 | a prefix of a sorted list holds its earliest entries |
| Sorting.PrefixOfPermutation | AgendaLei/src/screens/HomeScreen.js:50-53 | a prefix of a rearrangement of a list repeats nothing beyond the list, and the whole rearrangement holds exactly the list |
| Sorting.SortedTake | AgendaLei/src/screens/HomeScreen.js:50-53 | sorting then keeping the first `n` gives `n` entries, a sub-multiset of the list and the whole list when it is no longer than `n`, in key order, none later than an entry left out |
| Home.UpcomingOf | AgendaLei/src/screens/HomeScreen.js:41-47 | exactly the teacher's bookings dated at or after today's midnight, none repeated beyond the store |
| Home.Upcoming | AgendaLei/src/screens/HomeScreen.js:37-53 | at most three of the teacher's bookings from today on, each listed no more often than it is stored and all of them when there are at most three, earliest first, and none left out that is earlier than one kept |
| Home.BookedMeansBookingOnDay | AgendaLei/src/screens/HomeScreen.js:95-103 | a period is booked on a day exactly when a stored booking with that day's key starts at it |
| Home.UnbookedSlots | AgendaLei/src/screens/HomeScreen.js:100-112 | the free periods are exactly the unbooked timetable periods, in table order |
| Home.FreeSlotsOfDay | AgendaLei/src/screens/HomeScreen.js:93-112 | a day's free periods, stated by day index: those no booking falling on that day starts at |
| Home.FreeSlots | AgendaLei/src/screens/HomeScreen.js:93-112 | a day's free periods are the timetable's minus those a booking of that key starts at, in increasing order |
| Home.DayEntry | AgendaLei/src/screens/HomeScreen.js:86-91 | the entry's key names the day, its day number is the key's day of the month, and its slots are the day's free periods |
| Home.FreeDayHasSlots | AgendaLei/src/screens/HomeScreen.js:93-116 | a day without bookings has every period free |
| Home.SkipDecreases | AgendaLei/src/screens/HomeScreen.js:80-123 | each day the search passes over brings it closer to its end, so the loop terminates for every finite store |
| Home.DayStep | AgendaLei/src/screens/HomeScreen.js:82-116 | a day is taken exactly when it is a weekday with a free period, with its key, day of the month and free periods |
| Home.Walk | AgendaLei/src/screens/HomeScreen.js:80-123 | the walk collects five days in strictly increasing order from today, skipping none that its step would take |
| Home.CalculateAvailableSlots | AgendaLei/src/screens/HomeScreen.js:73-126 | five entries for strictly increasing days from today, each a weekday with a free period, and no qualifying day skipped |
| CalendarScreen.MarkKeys | AgendaLei/src/screens/CalendarScreen.js:37-50 | a key is marked exactly when some item has it, and each marking is one primary dot |
| CalendarScreen.MarkedDates | AgendaLei/src/screens/CalendarScreen.js:37-50 | a day key gets a marker exactly when a booking falls on it, always exactly one dot of the primary colour |
| CalendarScreen.LastStartingAt | AgendaLei/src/screens/CalendarScreen.js:89-94 | no result exactly when no booking starts at the time, otherwise the last booking in list order that does |
| CalendarScreen.LastIndexStartingAt | AgendaLei/src/screens/CalendarScreen.js:89-94 | -1 exactly when no booking starts at the time, otherwise the position of the last booking that does |
| CalendarScreen.LastStartingAtSnoc | AgendaLei/src/screens/CalendarScreen.js:89-94 | a booking added at the end decides its own start time and changes no other |
| CalendarScreen.SlotStatuses | AgendaLei/src/screens/CalendarScreen.js:78-95 | one entry per period in table order, taken exactly when a booking of the day starts at it, and holding a booking exactly when taken |
| CalendarScreen.MarkStep | AgendaLei/src/screens/CalendarScreen.js:90-94 | marking the one period a booking starts at, or nothing when none matches, extends the table by that booking |
| CalendarScreen.MarkBookings | AgendaLei/src/screens/CalendarScreen.js:89-95 | the in-place marking loop over the day's bookings yields the table of the reference definition |
| CalendarScreen.TimeSlotsDistinct | AgendaLei/src/utils/dateUtils.js:79-92 | the timetable's start times are pairwise different, so `findIndex` finds the only matching period |
| CalendarScreen.DayTimeSlots | AgendaLei/src/screens/CalendarScreen.js:76-98 | twelve entries for the timetable's periods; a period is unavailable exactly when a stored booking with that key starts at it |
| CalendarScreen.UpdateTimeSlots | AgendaLei/src/screens/CalendarScreen.js:76-98 | the screen's computation gives the day's table |
| CalendarScreen.CalendarAgreesWithHome | AgendaLei/src/screens/CalendarScreen.js:84-95 | a period shows available on the calendar exactly when the home screen lists it free that day |
| CalendarScreen.SlotStatusesSnoc | AgendaLei/src/screens/CalendarScreen.js:89-94 | one more booking of the day takes the period it starts at and leaves the others |
| CalendarScreen.DayTimeSlotsAppend | AgendaLei/src/screens/CalendarScreen.js:85-95 | a stored booking of another day changes nothing; one of the day takes its period and only that |
| CalendarScreen.HandleDayPress | AgendaLei/src/screens/CalendarScreen.js:100-122 | a day before today or more than seven days ahead is refused with its warning and the state is unchanged; otherwise it is selected and its table rebuilt |
| MyBookings.ConcatListed | AgendaLei/src/screens/MyBookingsScreen.js:45-52 | ascending future bookings followed by descending past ones are in the list's promised order |
| MyBookings.LaterFirstDescending | AgendaLei/src/screens/MyBookingsScreen.js:49 | sorting by the negated date orders the past bookings latest first, as the comparator `b.date - a.date` does |
| MyBookings.ArrangeBookings | AgendaLei/src/screens/MyBookingsScreen.js:37-52 | a permutation of the teacher's bookings; bookings ahead precede past ones, ahead ascending, past descending |
| MyBookings.ArrangedMembers | AgendaLei/src/screens/MyBookingsScreen.js:37-52 | a booking is listed exactly when it is stored and the teacher's |
| MyBookings.ShowsCancelButton | AgendaLei/src/screens/MyBookingsScreen.js:116-132 | the cancel button shows exactly for bookings dated today or later |
| MyBookings.CancellableShowsButton | AgendaLei/src/screens/MyBookingsScreen.js:77-132 | every booking the cancel gate accepts shows its button |
| MyBookings.ButtonShownButRefused | AgendaLei/src/screens/MyBookingsScreen.js:77-132 | a booking an hour away shows the button, and the gate refuses it |
| MyBookings.HandleCancelBooking | AgendaLei/src/screens/MyBookingsScreen.js:77-99 | a booking under 24 hours away is refused; a cancellation happens exactly when it is far enough and confirmed, and removes exactly the records with its id |
| MyBookings.CancelledLeavesList | AgendaLei/src/screens/MyBookingsScreen.js:95-99 | after a cancellation the reloaded list holds exactly the teacher's other bookings |

## Left out

- Time zones, daylight-saving time and the UTC parsing of date-only strings by `new Date("YYYY-MM-DD")`: instants are local milliseconds with fixed 24-hour days.
- The floating-point hour division in `canCancelBooking` is stated as an exact comparison of milliseconds, which is what it computes for integer differences.
- `formatDateWithWeekday` and the `dayName` field of the home screen's day entries: they rely on locale formatting.
- Storage reads and writes, JSON serialisation and storage errors: each store operation takes the sequence it reads and returns the sequence written back. The booking form's one-time load at opening is kept apart from the store its save reads.
- Store.SaveBooking: the value `saveBooking` returns is not modelled. An update returns the unmerged input and an append returns the new record; no caller in the booking rules uses it.
- Alerts, confirmation dialogs, loading and refresh flags, navigation and rendering: only the gated action is modelled, with the user's answer as an argument.
- Yup's coercion of form input: a number field that is empty or not a number, and an unset date, arrive as `None`.
- BookingForm.BuildDraft: the head count the schema checks and the one `parseInt` stores are taken to be the same integer. In the screen they can differ: the schema casts with `Number`, so `"1.5"` passes and `parseInt` stores 1, and `"0.5e1"` passes as 5 while `parseInt` stores 0. The model does not parse the field's text, so the stored count is promised to lie in [1, 20] only under this assumption.
- `TeacherRegisterScreen.js`: it is form plumbing around `saveTeacher`, whose effect is modelled.
- `getTeachers`, `getTeacherById`, `setCurrentTeacher`, `getCurrentTeacher`, `getBookings` and `clearAllData`: plain storage reads and writes.
- Home.CalculateAvailableSlots: the walk's `currentDate` is kept as a day index. The method also returns the day indices it picked, which the proof uses to state which days were taken.
- Home.Upcoming: the order among bookings with equal dates is not stated; the sort is stable but no contract says so.
- MyBookings.ArrangeBookings: the order among bookings with equal dates is not stated either.
- The timetable's `label` field is named `caption`, because `label` is a reserved word in Dafny.

## Findings

| source | as written | input that shows it | evidently intended | confidence | as-written member | corrected member |
|---|---|---|---|---|---|---|
| AgendaLei/src/screens/BookingFormScreen.js:80-82 | the form reads all bookings once, when it opens, and `checkBookingConflicts` judges that list, while `saveBooking` appends to the store as read at submit time | the form opens with no bookings; another tab then saves booking X for tomorrow at 07:10; the form submits tomorrow at 07:10 and it is saved, so the slot is booked twice | the conflict and quota rules judge the bookings stored when the booking is saved | medium, not executed: the form is mounted in all three tab stacks, so another screen can save while it is open | BookingForm.StaleFormDoubleBooks | BookingForm.SubmitFresh |

=== FILE: booking_form.dfy ===
/**
 The booking rule engine of the booking form
 (AgendaLei/src/screens/BookingFormScreen.js): the form schema, the
 date-picker window gate, the quota and slot-conflict check, the record the
 form submits, and the delete gate. The form's booking list is the store as
 loaded; "now", the fresh id and the creation stamp are arguments.
 */
module BookingForm {
  import opened Wrappers
  import opened Calendar
  import opened Records
  import opened Seqs
  import opened DateUtils
  import opened Store

  // ---------------------------------------------------------------------
  // The form and its schema

  /** The form's fields. A number field that is empty or not a number, and a
      date that was never set, are `None`. */
  datatype FormValues = FormValues(
    className: string,
    activity: string,
    numStudents: Option<int>,
    date: Option<Instant>,
    startTime: string,
    endTime: string)

  /** The fields the schema checks. */
  datatype Field = ClassName | Activity | NumStudents | Date | StartTime

  /** The head count the form accepts. */
  const MinStudents := 1
  const MaxStudents := 20

  /** `validationSchema`: the set of fields whose rule fails. Required strings
      must be non-empty, the head count must be a number in [1, 20], the date
      must be set; the end time is not checked. */
  function Validate(v: FormValues): (errors: set<Field>)
    ensures errors == {} <==>
              && v.className != "" && v.activity != "" && v.startTime != ""
              && v.date.Some?
              && v.numStudents.Some? && 1 <= v.numStudents.value <= 20
    ensures ClassName in errors <==> v.className == ""
    ensures Activity in errors <==> v.activity == ""
    ensures NumStudents in errors <==> !(v.numStudents.Some? && 1 <= v.numStudents.value <= 20)
    ensures Date in errors <==> v.date.None?
    ensures StartTime in errors <==> v.startTime == ""
  {
    (if v.className == "" then {ClassName} else {})
    + (if v.activity == "" then {Activity} else {})
    + (if v.numStudents.None? || v.numStudents.value < MinStudents || v.numStudents.value > MaxStudents
       then {NumStudents} else {})
    + (if v.date.None? then {Date} else {})
    + (if v.startTime == "" then {StartTime} else {})
  }

  /** `handleDateChange`: the field's new date. A dismissed picker and a date
      outside the booking window both leave the field as it was. */
  function HandleDateChange(current: Option<Instant>, selected: Option<Instant>, now: Instant): (r: Option<Instant>)
    ensures r == selected || r == current
    ensures r != current ==> r.Some? && DayOf(now) <= DayOf(r.value) <= DayOf(now) + 7
    ensures selected.Some? && DayOf(now) <= DayOf(selected.value) <= DayOf(now) + 7 ==> r == selected
  {
    match selected
    case None => current
    case Some(d) => if !IsWithinOneWeek(d, now) then current else selected
  }

  // ---------------------------------------------------------------------
  // Business rules

  /** Why a submission is refused. */
  datatype Rejection = QuotaExceeded | SlotConflict

  /** The bookings per teacher and week a new booking may join. */
  const WeeklyQuota := 2

  /** The list both rules look at: in edit mode, every record carrying the
      edited booking's id is set aside. */
  function BookingsToCheck(all: seq<Booking>, editing: Option<Booking>): (r: seq<Booking>)
    ensures editing.None? ==> r == all
    ensures editing.Some? ==> forall b :: b in r <==> b in all && b.id != editing.value.id
  {
    match editing
    case None => all
    case Some(e) => DeleteBooking(all, e.id)
  }

  /** `checkBookingConflicts`: the quota first, for new bookings only and
      counting the week of today; then a booking on the same day with the same
      start time. The first failing rule is reported. */
  function CheckBookingConflicts(date: Instant, startTime: string, teacherId: Id,
                                 editing: Option<Booking>, all: seq<Booking>, now: Instant): (r: Option<Rejection>)
    ensures r == Some(QuotaExceeded) <==>
              editing.None? && |CurrentWeekBookings(teacherId, all, now)| >= WeeklyQuota
    ensures r == Some(SlotConflict) <==>
              && !(editing.None? && |CurrentWeekBookings(teacherId, all, now)| >= WeeklyQuota)
              && exists b :: b in BookingsToCheck(all, editing)
                             && DayOf(b.date) == DayOf(date) && b.startTime == startTime
  {
    var toCheck := BookingsToCheck(all, editing);
    var userBookingsThisWeek := CountTeacherBookingsInCurrentWeek(teacherId, toCheck, now);
    if editing.None? && userBookingsThisWeek >= WeeklyQuota then
      Some(QuotaExceeded)
    else
      var bookingDate := FormatDateForCalendar(date);
      OccupiesIffSameDay(date, startTime);
      match Find(toCheck, b => Occupies(b, bookingDate, startTime))
      case Some(_) => Some(SlotConflict)
      case None => None
  }

  /** The conflict rule is the availability test on the list the form checks. */
  lemma ConflictIsUnavailable(date: Instant, startTime: string, teacherId: Id,
                              editing: Option<Booking>, all: seq<Booking>, now: Instant)
    requires !(editing.None? && |CurrentWeekBookings(teacherId, all, now)| >= WeeklyQuota)
    ensures CheckBookingConflicts(date, startTime, teacherId, editing, all, now) == Some(SlotConflict)
            <==> !IsTimeSlotAvailable(date, startTime, BookingsToCheck(all, editing))
  {
  }

  /** The quota looks at today's week, never at the candidate date: whether it
      fires does not depend on the date or the start time being booked. */
  lemma QuotaIgnoresCandidate(d1: Instant, s1: string, d2: Instant, s2: string, teacherId: Id,
                              editing: Option<Booking>, all: seq<Booking>, now: Instant)
    ensures CheckBookingConflicts(d1, s1, teacherId, editing, all, now) == Some(QuotaExceeded)
            <==> CheckBookingConflicts(d2, s2, teacherId, editing, all, now) == Some(QuotaExceeded)
  {
  }

  /** Editing never trips the quota, and the edited booking never conflicts
      with itself. */
  lemma EditNeverConflictsWithItself(e: Booking, all: seq<Booking>, teacherId: Id, now: Instant)
    requires forall b :: b in all && b.id != e.id ==> !(DayOf(b.date) == DayOf(e.date) && b.startTime == e.startTime)
    ensures CheckBookingConflicts(e.date, e.startTime, teacherId, Some(e), all, now).None?
  {
  }

  // ---------------------------------------------------------------------
  // Submitting

  /** The current teacher's fields a booking copies. */
  datatype CurrentTeacher = CurrentTeacher(id: Id, name: string, email: string, disciplina: string)

  /** The record `handleSubmit` builds: the edited booking's id in edit mode
      and no id otherwise, the teacher's fields, the form's fields, and the
      status `confirmed`. */
  function BuildDraft(v: FormValues, t: CurrentTeacher, editing: Option<Booking>): (d: BookingDraft)
    requires Validate(v) == {}
    ensures d.id.Some? <==> editing.Some?
    ensures editing.Some? ==> d.id.value == editing.value.id
    ensures d.teacherId == t.id && d.teacherName == t.name && d.teacherEmail == t.email && d.disciplina == t.disciplina
    ensures d.className == v.className && d.activity == v.activity
    ensures d.numStudents == v.numStudents.value && 1 <= d.numStudents <= 20
    ensures d.date == v.date.value && d.startTime == v.startTime && d.endTime == v.endTime
    ensures d.status == "confirmed"
  {
    BookingDraft(
      if editing.Some? then Some(editing.value.id) else None,
      t.id, t.name, t.email, t.disciplina,
      v.className, v.activity, v.numStudents.value, v.date.value, v.startTime, v.endTime,
      "confirmed")
  }

  /** What a submission leads to. */
  datatype SubmitOutcome =
    | Invalid(errors: set<Field>)
    | Rejected(reason: Rejection)
    | Saved(store: seq<Booking>)

  /** `handleSubmit`, behind the schema: a form with failing fields is not
      submitted, a refused booking saves nothing, and otherwise the draft is
      saved. The booking window is not checked again here. Two lists take
      part: the rules look at `loaded`, the bookings the form read once when
      it opened, while `saveBooking` reads the store afresh and writes `store`
      back with the draft in it. */
  function Submit(v: FormValues, t: CurrentTeacher, editing: Option<Booking>, loaded: seq<Booking>,
                  store: seq<Booking>, now: Instant, freshId: Id, createdAt: Instant): (r: SubmitOutcome)
    ensures r.Invalid? <==> Validate(v) != {}
    ensures r.Rejected? ==>
              CheckBookingConflicts(v.date.value, v.startTime, t.id, editing, loaded, now) == Some(r.reason)
    ensures r.Saved? <==>
              Validate(v) == {} && CheckBookingConflicts(v.date.value, v.startTime, t.id, editing, loaded, now).None?
    ensures r.Saved? ==> r.store == SaveBooking(store, BuildDraft(v, t, editing), freshId, createdAt)
  {
    var errors := Validate(v);
    if errors != {} then Invalid(errors)
    else
      match CheckBookingConflicts(v.date.value, v.startTime, t.id, editing, loaded, now)
      case Some(reason) => Rejected(reason)
      case None => Saved(SaveBooking(store, BuildDraft(v, t, editing), freshId, createdAt))
  }

  /** A new booking lands in the store as one more record with the fresh id,
      the form's day and start time, and every existing record untouched. */
  lemma SubmitNewAppends(v: FormValues, t: CurrentTeacher, loaded: seq<Booking>, store: seq<Booking>,
                         now: Instant, freshId: Id, createdAt: Instant)
    requires Submit(v, t, None, loaded, store, now, freshId, createdAt).Saved?
    ensures var s := Submit(v, t, None, loaded, store, now, freshId, createdAt).store;
      && |s| == |store| + 1 && s[..|store|] == store
      && s[|store|].id == freshId && s[|store|].teacherId == t.id && s[|store|].status == "confirmed"
      && s[|store|].date == v.date.value && s[|store|].startTime == v.startTime
  {
  }

  /** The submit path never looks at the booking window: a booking weeks ahead,
      which the date picker would have refused, is still saved. */
  lemma SubmitDoesNotRecheckWindow(t: CurrentTeacher, now: Instant, freshId: Id, createdAt: Instant)
    ensures var v := FormValues("1A", "Lab", Some(10), Some(now + 30 * MsPerDay), "07:10", "08:00");
      && !IsWithinOneWeek(v.date.value, now)
      && Submit(v, t, None, [], [], now, freshId, createdAt).Saved?
  {
    var v := FormValues("1A", "Lab", Some(10), Some(now + 30 * MsPerDay), "07:10", "08:00");
    assert Validate(v) == {};
    assert DayOf(now + 30 * MsPerDay) == DayOf(now) + 30;
  }

  // ---------------------------------------------------------------------
  // What a saved submission keeps true of the store

  /** No two records share a day and a start time: the laboratory is never
      double-booked. */
  ghost predicate SlotsUnique(store: seq<Booking>) {
    forall i, j :: 0 <= i < j < |store| ==>
      !(DayOf(store[i].date) == DayOf(store[j].date) && store[i].startTime == store[j].startTime)
  }

  /** No two records share an id. */
  ghost predicate IdsUnique(store: seq<Booking>) {
    forall i, j :: 0 <= i < j < |store| ==> store[i].id != store[j].id
  }

  /** Every record's head count is one the form accepts. */
  ghost predicate HeadCountsInRange(store: seq<Booking>) {
    forall i :: 0 <= i < |store| ==> MinStudents <= store[i].numStudents <= MaxStudents
  }

  /** A record without a truthy id is appended; when no stored record holds
      its day and start, no slot becomes booked twice. */
  lemma SaveNewKeepsInvariants(store: seq<Booking>, d: BookingDraft, freshId: Id, createdAt: Instant)
    requires !IsTruthyId(d.id) && SlotsUnique(store)
    requires forall b :: b in store ==> !(DayOf(b.date) == DayOf(d.date) && b.startTime == d.startTime)
    ensures SlotsUnique(SaveBooking(store, d, freshId, createdAt))
    ensures IdsUnique(store) && (forall b :: b in store ==> b.id != freshId) ==>
              IdsUnique(SaveBooking(store, d, freshId, createdAt))
    ensures HeadCountsInRange(store) && MinStudents <= d.numStudents <= MaxStudents ==>
              HeadCountsInRange(SaveBooking(store, d, freshId, createdAt))
  {
    var r := SaveBooking(store, d, freshId, createdAt);
    forall i, j | 0 <= i < j < |r|
      ensures !(DayOf(r[i].date) == DayOf(r[j].date) && r[i].startTime == r[j].startTime)
    {
      assert r[i] == store[i];
      if j == |store| {
        assert store[i] in store;
      }
    }
    forall i, j | 0 <= i < j < |r| && IdsUnique(store) && (forall b :: b in store ==> b.id != freshId)
      ensures r[i].id != r[j].id
    {
      assert r[i] == store[i];
      if j == |store| {
        assert store[i] in store;
      }
    }
  }

  /** A record with a truthy id replaces the one stored under that id; when
      no other record holds its day and start, no slot becomes booked twice. */
  lemma SaveEditKeepsInvariants(store: seq<Booking>, d: BookingDraft, freshId: Id, createdAt: Instant)
    requires IsTruthyId(d.id) && SlotsUnique(store) && IdsUnique(store)
    requires forall b :: b in store && b.id != d.id.value ==>
               !(DayOf(b.date) == DayOf(d.date) && b.startTime == d.startTime)
    ensures SlotsUnique(SaveBooking(store, d, freshId, createdAt))
    ensures IdsUnique(SaveBooking(store, d, freshId, createdAt))
    ensures HeadCountsInRange(store) && MinStudents <= d.numStudents <= MaxStudents ==>
              HeadCountsInRange(SaveBooking(store, d, freshId, createdAt))
  {
    var r := SaveBooking(store, d, freshId, createdAt);
    var id := d.id.value;
    forall i, j | 0 <= i < j < |r|
      ensures !(DayOf(r[i].date) == DayOf(r[j].date) && r[i].startTime == r[j].startTime)
    {
      if store[i].id == id {
        assert store[j] in store;
      } else if store[j].id == id {
        assert store[i] in store;
      }
    }
    forall i, j | 0 <= i < j < |r|
      ensures r[i].id != r[j].id
    {
      assert r[i].id == store[i].id && r[j].id == store[j].id;
    }
  }

  /** A saved submission, new or edited, leaves no slot booked twice, keeps
      ids distinct when the fresh id is unused, and keeps every head count in
      range, provided every record in the store was already in the list the
      form checked (nothing was saved since the form loaded it). Edited
      bookings carry a non-empty id, as every stored one does. */
  lemma SubmitKeepsStoreInvariants(v: FormValues, t: CurrentTeacher, editing: Option<Booking>,
                                   loaded: seq<Booking>, store: seq<Booking>,
                                   now: Instant, freshId: Id, createdAt: Instant)
    requires forall b :: b in store ==> b in loaded
    requires SlotsUnique(store) && IdsUnique(store)
    requires editing.Some? ==> editing.value.id != ""
    requires Submit(v, t, editing, loaded, store, now, freshId, createdAt).Saved?
    ensures SlotsUnique(Submit(v, t, editing, loaded, store, now, freshId, createdAt).store)
    ensures (forall b :: b in store ==> b.id != freshId) ==>
              IdsUnique(Submit(v, t, editing, loaded, store, now, freshId, createdAt).store)
    ensures HeadCountsInRange(store) ==>
              HeadCountsInRange(Submit(v, t, editing, loaded, store, now, freshId, createdAt).store)
  {
    var d := BuildDraft(v, t, editing);
    var toCheck := BookingsToCheck(loaded, editing);
    // Neither rule fired, so no checked record holds the form's day and start.
    assert CheckBookingConflicts(v.date.value, v.startTime, t.id, editing, loaded, now).None?;
    assert forall b :: b in toCheck ==> !(DayOf(b.date) == DayOf(d.date) && b.startTime == d.startTime);
    if editing.None? {
      SaveNewKeepsInvariants(store, d, freshId, createdAt);
    } else {
      SaveEditKeepsInvariants(store, d, freshId, createdAt);
    }
  }

  /** A form opened before another screen saved a booking still checks the
      list it loaded: booking the same day and period is let through and the
      store ends up holding that slot twice. */
  lemma StaleFormDoubleBooks(x: Booking, t: CurrentTeacher, now: Instant, freshId: Id, createdAt: Instant)
    requires DayOf(x.date) == DayOf(now) + 1 && x.startTime == "07:10"
    ensures var v := FormValues("1A", "Lab", Some(10), Some(now + MsPerDay), "07:10", "08:00");
      var r := Submit(v, t, None, [], [x], now, freshId, createdAt);
      && SlotsUnique([x])
      && r.Saved?
      && !SlotsUnique(r.store)
  {
    var v := FormValues("1A", "Lab", Some(10), Some(now + MsPerDay), "07:10", "08:00");
    assert Validate(v) == {};
    var r := Submit(v, t, None, [], [x], now, freshId, createdAt);
    assert DayOf(now + MsPerDay) == DayOf(now) + 1;
    assert r.store[0] == x && r.store[1].startTime == "07:10";
  }

  /** The submission the conflict rules are meant to guard: the rules look at
      the store as it is when the booking is saved. It never books a slot
      twice. */
  function SubmitFresh(v: FormValues, t: CurrentTeacher, editing: Option<Booking>, store: seq<Booking>,
                       now: Instant, freshId: Id, createdAt: Instant): (r: SubmitOutcome)
    ensures r.Saved? && SlotsUnique(store) && IdsUnique(store) && (editing.Some? ==> editing.value.id != "") ==>
              && SlotsUnique(r.store)
              && ((forall b :: b in store ==> b.id != freshId) ==> IdsUnique(r.store))
              && (HeadCountsInRange(store) ==> HeadCountsInRange(r.store))
    ensures r.Rejected? <==>
              Validate(v) == {} && CheckBookingConflicts(v.date.value, v.startTime, t.id, editing, store, now).Some?
  {
    var r := Submit(v, t, editing, store, store, now, freshId, createdAt);
    assert r.Saved? && SlotsUnique(store) && IdsUnique(store) && (editing.Some? ==> editing.value.id != "") ==>
             && SlotsUnique(r.store)
             && ((forall b :: b in store ==> b.id != freshId) ==> IdsUnique(r.store))
             && (HeadCountsInRange(store) ==> HeadCountsInRange(r.store)) by {
      if r.Saved? && SlotsUnique(store) && IdsUnique(store) && (editing.Some? ==> editing.value.id != "") {
        SubmitKeepsStoreInvariants(v, t, editing, store, store, now, freshId, createdAt);
      }
    }
    r
  }

  /** Checking the store as saved refuses the double booking the stale form lets through. */
  lemma FreshFormRefusesDoubleBooking(x: Booking, t: CurrentTeacher, now: Instant, freshId: Id, createdAt: Instant)
    requires DayOf(x.date) == DayOf(now) + 1 && x.startTime == "07:10"
    ensures var v := FormValues("1A", "Lab", Some(10), Some(now + MsPerDay), "07:10", "08:00");
      SubmitFresh(v, t, None, [x], now, freshId, createdAt) == Rejected(SlotConflict)
  {
    var v := FormValues("1A", "Lab", Some(10), Some(now + MsPerDay), "07:10", "08:00");
    assert Validate(v) == {};
    assert DayOf(now + MsPerDay) == DayOf(now) + 1;
    assert x in BookingsToCheck([x], None);
  }

  // ---------------------------------------------------------------------
  // Deleting

  /** What the delete button leads to. */
  datatype DeleteOutcome =
    | NothingToDelete
    | TooLate
    | Declined
    | Deleted(store: seq<Booking>)

  /** `handleDelete`: only an edited booking with an id, at least 24 hours
      ahead, and only once the user confirms. */
  function HandleDelete(editing: Option<Booking>, store: seq<Booking>, now: Instant, confirmed: bool): (r: DeleteOutcome)
    ensures r.Deleted? <==>
              editing.Some? && editing.value.id != "" && editing.value.date - now >= MsPerDay && confirmed
    ensures r == TooLate <==>
              editing.Some? && editing.value.id != "" && editing.value.date - now < MsPerDay
    ensures r.Deleted? ==> forall b :: b in r.store <==> b in store && b.id != editing.value.id
  {
    if editing.None? || editing.value.id == "" then NothingToDelete
    else if !CanCancelBooking(editing.value.date, now) then TooLate
    else if !confirmed then Declined
    else Deleted(DeleteBooking(store, editing.value.id))
  }
}

=== FILE: calendar.dfy ===
/**
 Time as the booking rules see it. An instant is a whole number of
 milliseconds since 1970-01-01 00:00:00.000 local time; a calendar day is a
 whole number of days since that same midnight. The proleptic Gregorian
 calendar converts between day indices and (year, month, day) triples, in
 both directions, with each direction proved to undo the other.
 */
module Calendar {

  /** Milliseconds since local midnight of 1970-01-01. */
  type Instant = int

  const MsPerHour: int := 3_600_000
  const MsPerDay: int := 86_400_000

  /** The calendar day an instant falls on (floor division, so instants
      before 1970 land on negative days). */
  function DayOf(t: Instant): int {
    t / MsPerDay
  }

  /** `setHours(0, 0, 0, 0)`: midnight opening the instant's day. */
  function StartOfDay(t: Instant): (r: Instant)
    ensures r % MsPerDay == 0
    ensures r <= t < r + MsPerDay
    ensures DayOf(r) == DayOf(t)
  {
    DayOf(t) * MsPerDay
  }

  /** `setHours(23, 59, 59, 999)`: the last millisecond of the instant's day. */
  function EndOfDay(t: Instant): (r: Instant)
    ensures (r + 1) % MsPerDay == 0
    ensures t <= r && r - MsPerDay < t
    ensures DayOf(r) == DayOf(t)
  {
    StartOfDay(t) + MsPerDay - 1
  }

  /** `Date.getDay()`: 0 is Sunday, ..., 6 is Saturday; 1970-01-01 was a Thursday. */
  function Weekday(day: int): (w: int)
    ensures 0 <= w < 7
  {
    (day + 4) % 7
  }

  /** 1970-01-01, day 0, was a Thursday: the Thursdays are exactly the days a
      whole number of weeks away from it. */
  lemma ThursdaysFromEpoch(day: int)
    ensures Weekday(day) == 4 <==> day % 7 == 0
  {
  }

  /** Adding fewer than seven days to a multiple of seven leaves that many as remainder. */
  lemma AddWithinWeek(a: int, k: int)
    requires a % 7 == 0 && 0 <= k < 7
    ensures (a + k) % 7 == k
  {
  }

  /** The day after a Saturday is a Sunday; otherwise the weekday moves up by one. */
  lemma WeekdayNext(day: int)
    ensures Weekday(day + 1) == if Weekday(day) == 6 then 0 else Weekday(day) + 1
  {
  }

  /** The Sunday on or before `day`. */
  function WeekStart(day: int): (s: int)
    ensures s <= day < s + 7
    ensures Weekday(s) == 0
    ensures s == day - Weekday(day)
  {
    day - Weekday(day)
  }

  lemma SameWeekIffSameStart(d: int, e: int)
    ensures WeekStart(d) == WeekStart(e) <==> WeekStart(d) <= e < WeekStart(d) + 7
  {
    var s := WeekStart(d);
    if s <= e < s + 7 {
      assert Weekday(e) == e - s by {
        assert (s + 4) % 7 == 0;
        assert e + 4 == (s + 4) + (e - s);
        AddWithinWeek(s + 4, e - s);
      }
    }
  }

  // ---------------------------------------------------------------------
  // Gregorian calendar

  datatype Civil = Civil(year: int, month: int, day: int)

  predicate IsLeapYear(y: int) {
    y % 4 == 0 && (y % 100 != 0 || y % 400 == 0)
  }

  function DaysInYear(y: int): int {
    if IsLeapYear(y) then 366 else 365
  }

  /** Days from 0001-01-01 to January 1st of year `y`. */
  function DaysBeforeYear(y: int): int {
    var k := y - 1;
    365 * k + k / 4 - k / 100 + k / 400
  }

  /** Days in a common year before the first of month `m`; `m == 13` gives the year length. */
  function CommonDaysBeforeMonth(m: int): int
    requires 1 <= m <= 13
  {
    if m == 1 then 0 else if m == 2 then 31 else if m == 3 then 59 else if m == 4 then 90
    else if m == 5 then 120 else if m == 6 then 151 else if m == 7 then 181 else if m == 8 then 212
    else if m == 9 then 243 else if m == 10 then 273 else if m == 11 then 304 else if m == 12 then 334
    else 365
  }

  function DaysBeforeMonth(y: int, m: int): (r: int)
    requires 1 <= m <= 13
    ensures m == 1 ==> r == 0
    ensures m == 13 ==> r == DaysInYear(y)
  {
    CommonDaysBeforeMonth(m) + (if m > 2 && IsLeapYear(y) then 1 else 0)
  }

  function DaysInMonth(y: int, m: int): (r: int)
    requires 1 <= m <= 12
    ensures 28 <= r <= 31
  {
    DaysBeforeMonth(y, m + 1) - DaysBeforeMonth(y, m)
  }

  predicate ValidCivil(c: Civil) {
    1 <= c.month <= 12 && 1 <= c.day <= DaysInMonth(c.year, c.month)
  }

  /** Days from 0001-01-01 to 1970-01-01. */
  const EpochDays: int := 719_162

  /** Day index of a calendar date. */
  function DayFromCivil(c: Civil): int
    requires ValidCivil(c)
  {
    DaysBeforeYear(c.year) + DaysBeforeMonth(c.year, c.month) + c.day - 1 - EpochDays
  }

  lemma EpochDaysIsDaysBeforeYear()
    ensures DaysBeforeYear(1970) == EpochDays
  {
  }

  /** Stepping `y` by one raises `y / 4`, `y / 100` and `y / 400` exactly
      when `y` is a multiple of the divisor. */
  lemma DivStep4(y: int)
    ensures y / 4 == (y - 1) / 4 + (if y % 4 == 0 then 1 else 0)
  {
  }

  lemma DivStep100(y: int)
    ensures y / 100 == (y - 1) / 100 + (if y % 100 == 0 then 1 else 0)
  {
  }

  lemma DivStep400(y: int)
    ensures y / 400 == (y - 1) / 400 + (if y % 400 == 0 then 1 else 0)
  {
  }

  lemma DaysBeforeYearStep(y: int)
    ensures DaysBeforeYear(y + 1) == DaysBeforeYear(y) + DaysInYear(y)
  {
    DivStep4(y);
    DivStep100(y);
    DivStep400(y);
  }

  lemma {:induction false} DaysBeforeYearIncreasing(a: int, b: int)
    requires a < b
    ensures DaysBeforeYear(a + 1) <= DaysBeforeYear(b)
    decreases b - a
  {
    if a + 1 < b {
      DaysBeforeYearIncreasing(a, b - 1);
      DaysBeforeYearStep(b - 1);
    }
  }

  /** `400 * DaysBeforeYear(k + 1)` stays within a few hundred of `146097 * k`. */
  lemma DaysBeforeYearEstimate(k: int)
    ensures 146097 * k - 699 <= 400 * DaysBeforeYear(k + 1) <= 146097 * k + 396
  {
    assert 4 * (k / 4) <= k < 4 * (k / 4) + 4;
    assert 100 * (k / 100) <= k < 100 * (k / 100) + 100;
    assert 400 * (k / 400) <= k < 400 * (k / 400) + 400;
  }

  /** The year containing the `n`-th day after 0001-01-01 (counting from 0). */
  function YearOfDays(n: int): (y: int)
    ensures DaysBeforeYear(y) <= n < DaysBeforeYear(y + 1)
  {
    var k := (400 * n) / 146097;
    assert 146097 * k <= 400 * n < 146097 * k + 146097;
    DaysBeforeYearEstimate(k);
    DaysBeforeYearEstimate(k + 1);
    DaysBeforeYearStep(k + 2);
    if DaysBeforeYear(k + 2) <= n then k + 2 else k + 1
  }

  /** The month, from `m` on, whose range of day-of-year values holds `doy`. */
  function {:induction false} MonthFrom(y: int, doy: int, m: int): (r: int)
    requires 1 <= m <= 12
    requires DaysBeforeMonth(y, m) <= doy < DaysInYear(y)
    ensures m <= r <= 12
    ensures DaysBeforeMonth(y, r) <= doy < DaysBeforeMonth(y, r + 1)
    decreases 12 - m
  {
    if m == 12 || doy < DaysBeforeMonth(y, m + 1) then m else MonthFrom(y, doy, m + 1)
  }

  /** Calendar date of a day index; its contract is one half of the round trip. */
  function CivilFromDay(d: int): (c: Civil)
    ensures ValidCivil(c)
    ensures DayFromCivil(c) == d
  {
    var n := d + EpochDays;
    var y := YearOfDays(n);
    DaysBeforeYearStep(y);
    var doy := n - DaysBeforeYear(y);
    var m := MonthFrom(y, doy, 1);
    Civil(y, m, doy - DaysBeforeMonth(y, m) + 1)
  }

  lemma {:induction false} DaysBeforeMonthIncreasing(y: int, a: int, b: int)
    requires 1 <= a < b <= 13
    ensures DaysBeforeMonth(y, a + 1) <= DaysBeforeMonth(y, b)
  {
  }

  /** Different valid dates have different day indices. */
  lemma DayFromCivilInjective(c1: Civil, c2: Civil)
    requires ValidCivil(c1) && ValidCivil(c2)
    requires DayFromCivil(c1) == DayFromCivil(c2)
    ensures c1 == c2
  {
    var y1, y2 := c1.year, c2.year;
    DaysBeforeMonthIncreasing(y1, c1.month, 13);
    DaysBeforeMonthIncreasing(y2, c2.month, 13);
    DaysBeforeYearStep(y1);
    DaysBeforeYearStep(y2);
    if y1 < y2 {
      DaysBeforeYearIncreasing(y1, y2);
    } else if y2 < y1 {
      DaysBeforeYearIncreasing(y2, y1);
    }
    assert y1 == y2;
    if c1.month < c2.month {
      DaysBeforeMonthIncreasing(y1, c1.month, c2.month);
    } else if c2.month < c1.month {
      DaysBeforeMonthIncreasing(y1, c2.month, c1.month);
    }
  }

  /** The other half of the round trip: converting a valid date to a day index and back is the identity. */
  lemma CivilRoundTrip(c: Civil)
    requires ValidCivil(c)
    ensures CivilFromDay(DayFromCivil(c)) == c
  {
    DayFromCivilInjective(CivilFromDay(DayFromCivil(c)), c);
  }

  /** Two day indices share a calendar date exactly when they are equal. */
  lemma CivilFromDayInjective(d: int, e: int)
    ensures CivilFromDay(d) == CivilFromDay(e) <==> d == e
  {
  }
}

=== FILE: calendar_screen.dfy ===
/**
 The calendar screen (AgendaLei/src/screens/CalendarScreen.js): the dot
 markers on days that hold bookings, the occupancy of the timetable on the
 selected day, and the gate on which days may be selected.
 */
module CalendarScreen {
  import opened Wrappers
  import opened Calendar
  import opened Records
  import opened Seqs
  import opened DateUtils
  import opened Home

  // ---------------------------------------------------------------------
  // Calendar markers

  /** A coloured dot under a calendar day. */
  datatype Dot = Dot(color: string)

  /** The marking of one calendar day. */
  datatype Marking = Marking(dots: seq<Dot>)

  /** The app's primary colour, the colour of a booking dot. */
  const Primary := "#1E88E5"

  /** The marking loop of `loadBookings`, over any day key: every item's key
      gets a marking with one primary dot; a key seen again keeps its marking,
      since its dots already hold a primary one. */
  method MarkKeys<T>(items: seq<T>, keyOf: T -> string) returns (marked: map<string, Marking>)
    ensures forall key :: key in marked <==> exists b :: b in items && keyOf(b) == key
    ensures forall key :: key in marked ==> marked[key] == Marking([Dot(Primary)])
  {
    marked := map[];
    for k := 0 to |items|
      invariant forall key :: key in marked <==> exists b :: b in items[..k] && keyOf(b) == key
      invariant forall key :: key in marked ==> marked[key] == Marking([Dot(Primary)])
    {
      var item := items[k];
      var dateKey := keyOf(item);
      if dateKey !in marked {
        marked := marked[dateKey := Marking([Dot(Primary)])];
      } else {
        var dots := marked[dateKey].dots;
        var hasPrimary := exists dot :: dot in dots && dot.color == Primary;
        marked := marked[dateKey := Marking(if hasPrimary then dots else dots + [Dot(Primary)])];
      }
      assert items[..k + 1] == items[..k] + [item];
    }
    assert items[..|items|] == items;
  }

  /** The calendar's markers: exactly the days holding a booking carry one
      primary dot. */
  method MarkedDates(all: seq<Booking>) returns (marked: map<string, Marking>)
    ensures forall key :: key in marked <==> exists b :: b in all && FormatDateForCalendar(b.date) == key
    ensures forall key :: key in marked ==> marked[key] == Marking([Dot(Primary)])
  {
    var keyOf := (b: Booking) => FormatDateForCalendar(b.date);
    assert forall b :: keyOf(b) == FormatDateForCalendar(b.date);
    marked := MarkKeys(all, keyOf);
  }

  // ---------------------------------------------------------------------
  // Occupancy of the selected day

  /** A timetable period as the screen lists it: `{...slot, available, booking}`. */
  datatype SlotStatus = SlotStatus(slot: Slot, available: bool, booking: Option<Booking>)

  /** The index of the last booking of `bs` that starts at `value`, or -1. */
  function LastIndexStartingAt(bs: seq<Booking>, value: string): (k: int)
    ensures -1 <= k < |bs|
    ensures k == -1 <==> forall i :: 0 <= i < |bs| ==> bs[i].startTime != value
    ensures 0 <= k ==> bs[k].startTime == value && forall j :: k < j < |bs| ==> bs[j].startTime != value
  {
    if |bs| == 0 then -1
    else if bs[|bs| - 1].startTime == value then |bs| - 1
    else LastIndexStartingAt(bs[..|bs| - 1], value)
  }

  /** The last booking of `bs`, in list order, that starts at `value`: the
      booking a period ends up holding once every later match has overwritten it. */
  function LastStartingAt(bs: seq<Booking>, value: string): (r: Option<Booking>)
    ensures r.None? <==> forall b :: b in bs ==> b.startTime != value
    ensures r.Some? ==> exists k :: 0 <= k < |bs| && bs[k] == r.value && bs[k].startTime == value
                                    && forall j :: k < j < |bs| ==> bs[j].startTime != value
  {
    var k := LastIndexStartingAt(bs, value);
    if k == -1 then None else Some(bs[k])
  }

  /** One booking more at the end of the list decides its start's period when
      it matches it, and changes nothing else. */
  lemma LastStartingAtSnoc(bs: seq<Booking>, b: Booking, value: string)
    ensures LastStartingAt(bs + [b], value) == if b.startTime == value then Some(b) else LastStartingAt(bs, value)
  {
    assert (bs + [b])[..|bs|] == bs;
    assert LastIndexStartingAt(bs + [b], value) == if b.startTime == value then |bs| else LastIndexStartingAt(bs, value);
  }

  /** The status of one period once the day's bookings are laid on it. */
  function StatusOf(slot: Slot, bookingsForDay: seq<Booking>): SlotStatus {
    var last := LastStartingAt(bookingsForDay, slot.value);
    SlotStatus(slot, last.None?, last)
  }

  /** The day's timetable: every period, in table order, taken exactly when a
      booking of the day starts at it, holding the last such booking. */
  function SlotStatuses(timeSlots: seq<Slot>, bookingsForDay: seq<Booking>): (r: seq<SlotStatus>)
    ensures |r| == |timeSlots|
    ensures forall i :: 0 <= i < |r| ==> r[i].slot == timeSlots[i]
    ensures forall i :: 0 <= i < |r| ==>
              (!r[i].available <==> exists b :: b in bookingsForDay && b.startTime == timeSlots[i].value)
    ensures forall i :: 0 <= i < |r| ==> (r[i].available <==> r[i].booking.None?)
  {
    seq(|timeSlots|, i requires 0 <= i < |timeSlots| => StatusOf(timeSlots[i], bookingsForDay))
  }

  /** No two periods share a start time. */
  ghost predicate DistinctStarts(timeSlots: seq<Slot>) {
    forall i, j :: 0 <= i < j < |timeSlots| ==> timeSlots[i].value != timeSlots[j].value
  }

  /** One turn of the marking loop: marking the period found for one more
      booking (or nothing, when none starts at its time) turns the table of
      the bookings so far into the table with that booking added. */
  lemma MarkStep(timeSlots: seq<Slot>, done: seq<Booking>, booking: Booking, slotIndex: int)
    requires DistinctStarts(timeSlots)
    requires -1 <= slotIndex < |timeSlots|
    requires slotIndex == -1 <==> forall i :: 0 <= i < |timeSlots| ==> timeSlots[i].value != booking.startTime
    requires 0 <= slotIndex ==> timeSlots[slotIndex].value == booking.startTime
    ensures var before := SlotStatuses(timeSlots, done);
      (if slotIndex == -1 then before
       else before[slotIndex := SlotStatus(before[slotIndex].slot, false, Some(booking))])
      == SlotStatuses(timeSlots, done + [booking])
  {
    SlotStatusesSnoc(timeSlots, done, booking);
  }

  /** The `forEach` of `updateTimeSlots`: each booking of the day marks the
      first period that starts at its start time, overwriting what an earlier
      booking left there; a booking matching no period is passed over. */
  method MarkBookings(timeSlots: seq<Slot>, bookingsForDay: seq<Booking>) returns (availableSlots: seq<SlotStatus>)
    requires DistinctStarts(timeSlots)
    ensures availableSlots == SlotStatuses(timeSlots, bookingsForDay)
  {
    availableSlots := seq(|timeSlots|, i requires 0 <= i < |timeSlots| => SlotStatus(timeSlots[i], true, None));
    assert availableSlots == SlotStatuses(timeSlots, bookingsForDay[..0]);
    for k := 0 to |bookingsForDay|
      invariant availableSlots == SlotStatuses(timeSlots, bookingsForDay[..k])
    {
      var booking := bookingsForDay[k];
      assert bookingsForDay[..k + 1] == bookingsForDay[..k] + [booking];
      var slotIndex := FindIndex(availableSlots, (s: SlotStatus) => s.slot.value == booking.startTime);
      MarkStep(timeSlots, bookingsForDay[..k], booking, slotIndex);
      if slotIndex != -1 {
        availableSlots := availableSlots[slotIndex := SlotStatus(availableSlots[slotIndex].slot, false, Some(booking))];
      }
    }
    assert bookingsForDay[..|bookingsForDay|] == bookingsForDay;
  }

  /** The timetable's start times are pairwise different. */
  lemma TimeSlotsDistinct()
    ensures DistinctStarts(TimeSlots())
  {
    forall i, j | 0 <= i < j < 12
      ensures TimeSlots()[i].value != TimeSlots()[j].value
    {
      TimeSlotValuesDistinct(i, j);
    }
  }

  /** The list the screen shows for the day with key `date`. */
  function DayTimeSlots(date: string, allBookings: seq<Booking>): (r: seq<SlotStatus>)
    ensures |r| == 12
    ensures forall i :: 0 <= i < 12 ==> r[i].slot == TimeSlots()[i]
    ensures forall i :: 0 <= i < 12 ==>
              (!r[i].available <==> exists b :: b in allBookings && FormatDateForCalendar(b.date) == date
                                                 && b.startTime == TimeSlots()[i].value)
  {
    SlotStatuses(TimeSlots(), BookingsOn(allBookings, date))
  }

  /** `updateTimeSlots(date, allBookings)`. */
  method UpdateTimeSlots(date: string, allBookings: seq<Booking>) returns (availableSlots: seq<SlotStatus>)
    ensures availableSlots == DayTimeSlots(date, allBookings)
  {
    TimeSlotsDistinct();
    var bookingsForDay := BookingsOn(allBookings, date);
    availableSlots := MarkBookings(TimeSlots(), bookingsForDay);
  }

  /** The calendar's free periods are the home screen's: a period shows as
      available on a day exactly when the home screen lists it as free. */
  lemma CalendarAgreesWithHome(key: string, all: seq<Booking>)
    ensures forall i :: 0 <= i < 12 ==>
              (DayTimeSlots(key, all)[i].available <==> TimeSlots()[i] in FreeSlots(key, all))
  {
    forall i | 0 <= i < 12
      ensures DayTimeSlots(key, all)[i].available <==> TimeSlots()[i] in FreeSlots(key, all)
    {
      assert TimeSlots()[i] in TimeSlots();
    }
  }

  /** One more booking of the day takes the period it starts at and leaves
      the other periods as they were. */
  lemma SlotStatusesSnoc(timeSlots: seq<Slot>, bookingsForDay: seq<Booking>, b: Booking)
    ensures forall i :: 0 <= i < |timeSlots| ==>
              SlotStatuses(timeSlots, bookingsForDay + [b])[i]
              == if b.startTime == timeSlots[i].value then SlotStatus(timeSlots[i], false, Some(b))
                 else SlotStatuses(timeSlots, bookingsForDay)[i]
  {
    forall i | 0 <= i < |timeSlots| {
      LastStartingAtSnoc(bookingsForDay, b, timeSlots[i].value);
    }
  }

  /** One more stored booking: a booking of another day leaves the day's
      table as it was; a booking of the day takes the period it starts at and
      leaves the others alone. */
  lemma DayTimeSlotsAppend(key: string, all: seq<Booking>, b: Booking)
    ensures FormatDateForCalendar(b.date) != key ==> DayTimeSlots(key, all + [b]) == DayTimeSlots(key, all)
    ensures FormatDateForCalendar(b.date) == key ==>
              forall i :: 0 <= i < 12 ==>
                DayTimeSlots(key, all + [b])[i]
                == if b.startTime == TimeSlots()[i].value then SlotStatus(TimeSlots()[i], false, Some(b))
                   else DayTimeSlots(key, all)[i]
  {
    var onDay := (b': Booking) => FormatDateForCalendar(b'.date) == key;
    FilterSnoc(all, b, onDay);
    SlotStatusesSnoc(TimeSlots(), BookingsOn(all, key), b);
  }

  // ---------------------------------------------------------------------
  // Selecting a day

  /** Why a pressed day is refused. */
  datatype DayWarning = PastDay | BeyondWeek

  /** The screen's state: the selected day's key and its table. */
  datatype CalendarState = CalendarState(selectedDate: string, timeSlots: seq<SlotStatus>)

  /** `handleDayPress` for the day with index `day` (the calendar hands over
      its key): a day before today or more than seven days ahead is refused
      and nothing changes; otherwise it becomes the selected day and its
      table is rebuilt from the loaded bookings. */
  method HandleDayPress(day: int, state: CalendarState, bookings: seq<Booking>, now: Instant)
    returns (warning: Option<DayWarning>, next: CalendarState)
    ensures warning == Some(PastDay) <==> day < DayOf(now)
    ensures warning == Some(BeyondWeek) <==> day > DayOf(now) + 7
    ensures warning.Some? ==> next == state
    ensures warning.None? ==>
              next.selectedDate == KeyOfDay(day) && next.timeSlots == DayTimeSlots(KeyOfDay(day), bookings)
  {
    var selectedDay := day * MsPerDay;
    var today := StartOfDay(now);
    if selectedDay < today {
      return Some(PastDay), state;
    }
    var oneWeekFromNow := today + 7 * MsPerDay;
    if selectedDay > oneWeekFromNow {
      return Some(BeyondWeek), state;
    }
    var dateString := KeyOfDay(day);
    var timeSlots := UpdateTimeSlots(dateString, bookings);
    return None, CalendarState(dateString, timeSlots);
  }
}

=== FILE: date_utils.dfy ===
/**
 Date formatting, the day-granular window predicates, the 24-hour
 cancellation rule, the fixed timetable, slot availability and the weekly
 per-teacher count (AgendaLei/src/utils/dateUtils.js). "Now" is always an
 explicit argument.
 */
module DateUtils {
  import opened Text
  import opened Calendar
  import opened Records
  import opened Seqs

  // ---------------------------------------------------------------------
  // Formatting

  /** Where the three parts of a separator-joined date string sit. */
  lemma JoinParts(a: string, b: string, c: string, sep: char)
    requires |b| == 2
    ensures var r := a + [sep] + b + [sep] + c;
      && r[..|a|] == a && r[|a|] == sep && r[|a| + 1..|a| + 3] == b
      && r[|a| + 3] == sep && r[|a| + 4..] == c
  {
  }

  /** Reads back a "Y-MM-DD" key: everything before the last six characters is the year. */
  function ParseCalendarKey(s: string): Civil
    requires |s| >= 6
  {
    Civil(ParseInt(s[..|s| - 6]), ParseNat(s[|s| - 5..|s| - 3]), ParseNat(s[|s| - 2..]))
  }

  /** `${year}-${MM}-${DD}`: the "same calendar day" key. */
  function CalendarKey(c: Civil): (r: string)
    requires ValidCivil(c)
    ensures |r| >= 6 && r[|r| - 6] == '-' && r[|r| - 3] == '-'
    ensures AllDigits(r[|r| - 5..|r| - 3]) && AllDigits(r[|r| - 2..])
    ensures 1000 <= c.year <= 9999 ==>
              |r| == 10 && AllDigits(r[..4]) && r[4] == '-' && r[7] == '-'
    ensures ParseCalendarKey(r) == c
  {
    var y, mm, dd := IntToString(c.year), TwoDigits(c.month), TwoDigits(c.day);
    JoinParts(y, mm, dd, '-');
    ParseIntRoundTrip(c.year);
    y + "-" + mm + "-" + dd
  }

  /** Reads back a "DD/MM/Y" display string. */
  function ParseDisplayDate(s: string): Civil
    requires |s| >= 6
  {
    Civil(ParseInt(s[6..]), ParseNat(s[3..5]), ParseNat(s[..2]))
  }

  /** `${DD}/${MM}/${year}`: the date as shown to the user. */
  function DisplayDate(c: Civil): (r: string)
    requires ValidCivil(c)
    ensures |r| >= 7 && r[2] == '/' && r[5] == '/'
    ensures AllDigits(r[..2]) && AllDigits(r[3..5])
    ensures 1000 <= c.year <= 9999 ==> |r| == 10 && AllDigits(r[6..])
    ensures ParseDisplayDate(r) == c
  {
    var y, mm, dd := IntToString(c.year), TwoDigits(c.month), TwoDigits(c.day);
    JoinParts(dd, mm, y, '/');
    ParseIntRoundTrip(c.year);
    dd + "/" + mm + "/" + y
  }

  /** The key of a day index. */
  function KeyOfDay(day: int): (r: string)
    ensures |r| >= 6
    ensures ParseCalendarKey(r) == CivilFromDay(day)
  {
    CalendarKey(CivilFromDay(day))
  }

  /** `formatDateForCalendar(date)`. */
  function FormatDateForCalendar(t: Instant): (r: string)
    ensures |r| >= 6
    ensures ParseCalendarKey(r) == CivilFromDay(DayOf(t))
  {
    KeyOfDay(DayOf(t))
  }

  /** `formatDate(date)`. */
  function FormatDate(t: Instant): (r: string)
    ensures |r| >= 7 && r[2] == '/' && r[5] == '/'
    ensures ParseDisplayDate(r) == CivilFromDay(DayOf(t))
  {
    DisplayDate(CivilFromDay(DayOf(t)))
  }

  /** Two valid dates share a key exactly when they are the same date, for every year. */
  lemma CalendarKeyInjective(c1: Civil, c2: Civil)
    requires ValidCivil(c1) && ValidCivil(c2)
    ensures CalendarKey(c1) == CalendarKey(c2) <==> c1 == c2
  {
  }

  /** Two valid dates render alike exactly when they are the same date. */
  lemma DisplayDateInjective(c1: Civil, c2: Civil)
    requires ValidCivil(c1) && ValidCivil(c2)
    ensures DisplayDate(c1) == DisplayDate(c2) <==> c1 == c2
  {
  }

  /** The key identifies the day: two instants share a key exactly when they fall on the same day. */
  lemma SameKeyIffSameDay(t1: Instant, t2: Instant)
    ensures FormatDateForCalendar(t1) == FormatDateForCalendar(t2) <==> DayOf(t1) == DayOf(t2)
  {
  }

  lemma KeyOfDayInjective(d: int, e: int)
    ensures KeyOfDay(d) == KeyOfDay(e) <==> d == e
  {
  }

  /** `getCurrentDate()`: today's key, with the clock reading as an argument. */
  function GetCurrentDate(now: Instant): (r: string)
    ensures |r| >= 6
    ensures ParseCalendarKey(r) == CivilFromDay(DayOf(now))
  {
    FormatDateForCalendar(now)
  }

  /** Today's key is the key of exactly the instants that fall on today. */
  lemma CurrentDateIsToday(now: Instant, t: Instant)
    ensures GetCurrentDate(now) == FormatDateForCalendar(t) <==> DayOf(t) == DayOf(now)
  {
    SameKeyIffSameDay(now, t);
  }

  // ---------------------------------------------------------------------
  // Day-granular predicates

  /** `isPastDate`: the end of the date's day lies before the start of today. */
  function IsPastDate(date: Instant, now: Instant): (r: bool)
    ensures r <==> DayOf(date) < DayOf(now)
  {
    EndOfDay(date) < StartOfDay(now)
  }

  /** `isWithinOneWeek`: the date's midnight lies between today's midnight and
      the midnight seven days later, both bounds included. */
  function IsWithinOneWeek(date: Instant, now: Instant): (r: bool)
    ensures r <==> DayOf(now) <= DayOf(date) <= DayOf(now) + 7
  {
    var d := StartOfDay(date);
    var today := StartOfDay(now);
    var oneWeekFromNow := today + 7 * MsPerDay;
    d >= today && d <= oneWeekFromNow
  }

  /** `canCancelBooking`: at least 24 hours remain until the booking. The source
      divides the millisecond difference by an hour in floating point; the
      quotient itself is rounded there and exact here, but the comparison with
      24 comes out the same for every integer difference. */
  function CanCancelBooking(bookingDate: Instant, now: Instant): (r: bool)
    ensures r <==> bookingDate - now >= MsPerDay
  {
    var diffMs := bookingDate - now;
    var diffHours := diffMs as real / MsPerHour as real;
    diffHours >= 24.0
  }

  /** A later booking never loses the right to be cancelled, and neither does an earlier "now". */
  lemma CanCancelMonotone(t1: Instant, t2: Instant, now1: Instant, now2: Instant)
    requires t1 <= t2 && now2 <= now1
    ensures CanCancelBooking(t1, now1) ==> CanCancelBooking(t2, now2)
  {
  }

  /** A booking that may still be cancelled is not in the past. */
  lemma CancellableIsNotPast(t: Instant, now: Instant)
    ensures CanCancelBooking(t, now) ==> !IsPastDate(t, now)
  {
  }

  // ---------------------------------------------------------------------
  // Timetable

  /** Minutes after midnight of an "HH:MM" string. */
  function ClockMinutes(s: string): int
    requires |s| == 5
  {
    ClockHours(s) * 60 + DigitValue(s[3]) * 10 + DigitValue(s[4])
  }

  function ClockHours(s: string): int
    requires |s| == 5
  {
    DigitValue(s[0]) * 10 + DigitValue(s[1])
  }

  /** A zero-padded 24-hour "HH:MM" string. */
  predicate IsClock(s: string) {
    && |s| == 5 && IsDigit(s[0]) && IsDigit(s[1]) && s[2] == ':' && IsDigit(s[3]) && IsDigit(s[4])
    && ClockHours(s) < 24 && DigitValue(s[3]) < 6
  }

  /** A timetable entry: well-formed start and end, the end after the start. */
  predicate WellFormedSlot(slot: Slot) {
    && IsClock(slot.value) && IsClock(slot.endTime)
    && ClockMinutes(slot.value) < ClockMinutes(slot.endTime)
  }

  /** "HH:MM" for a number of minutes after midnight. */
  function ClockString(minutes: int): (r: string)
    requires 0 <= minutes < 24 * 60
    ensures IsClock(r) && ClockMinutes(r) == minutes
  {
    var h, m := minutes / 60, minutes % 60;
    DigitRoundTrip(h / 10);
    DigitRoundTrip(h % 10);
    DigitRoundTrip(m / 10);
    DigitRoundTrip(m % 10);
    [DigitChar(h / 10), DigitChar(h % 10), ':', DigitChar(m / 10), DigitChar(m % 10)]
  }

  /** The boundaries of the school day's periods, in minutes after midnight:
      07:10, 08:00, 08:50, 09:40, 10:00, 10:50, 11:40, 13:00, 13:50, 14:40,
      15:00, 15:50 and 16:40. Period `i` runs from bound `i` to bound `i + 1`. */
  function PeriodBound(i: int): (m: int)
    requires 0 <= i <= 12
    ensures 7 * 60 <= m <= 17 * 60
  {
    if i == 0 then 430 else if i == 1 then 480 else if i == 2 then 530
    else if i == 3 then 580 else if i == 4 then 600 else if i == 5 then 650
    else if i == 6 then 700 else if i == 7 then 780 else if i == 8 then 830
    else if i == 9 then 880 else if i == 10 then 900 else if i == 11 then 950
    else 1000
  }

  /** The caption the timetable shows for period `i`. */
  function SlotCaption(i: int): string
    requires 0 <= i < 12
  {
    if i == 0 then "1º Tempo: 07:10 - 08:00" else if i == 1 then "2º Tempo: 08:00 - 08:50"
    else if i == 2 then "3º Tempo: 08:50 - 09:40" else if i == 3 then "Intervalo: 09:40 - 10:00"
    else if i == 4 then "4º Tempo: 10:00 - 10:50" else if i == 5 then "5º Tempo: 10:50 - 11:40"
    else if i == 6 then "Almoço: 11:40 - 13:00" else if i == 7 then "6º Tempo: 13:00 - 13:50"
    else if i == 8 then "7º Tempo: 13:50 - 14:40" else if i == 9 then "Intervalo: 14:40 - 15:00"
    else if i == 10 then "8º Tempo: 15:00 - 15:50" else "9º Tempo: 15:50 - 16:40"
  }

  /** Period boundaries strictly increase through the day. */
  lemma PeriodBoundIncreasing(i: int, j: int)
    requires 0 <= i < j <= 12
    ensures PeriodBound(i) < PeriodBound(j)
  {
  }

  /** Period `i` of the timetable. */
  function PeriodSlot(i: int): (slot: Slot)
    requires 0 <= i < 12
    ensures WellFormedSlot(slot)
    ensures ClockMinutes(slot.value) == PeriodBound(i) && ClockMinutes(slot.endTime) == PeriodBound(i + 1)
  {
    PeriodBoundIncreasing(i, i + 1);
    Slot(SlotCaption(i), ClockString(PeriodBound(i)), ClockString(PeriodBound(i + 1)))
  }

  /** `getTimeSlots()`: the twelve bookable periods of a school day, breaks and
      lunch included, each one starting where the previous one ends. */
  function TimeSlots(): (r: seq<Slot>)
    ensures |r| == 12
    ensures forall i :: 0 <= i < 12 ==> WellFormedSlot(r[i])
    ensures forall i :: 0 <= i < 11 ==> r[i].endTime == r[i + 1].value
  {
    seq(12, i requires 0 <= i < 12 => PeriodSlot(i))
  }

  /** The school day runs from 07:10 to 16:40. */
  lemma TimeSlotsSpan()
    ensures ClockMinutes(TimeSlots()[0].value) == 7 * 60 + 10
    ensures ClockMinutes(TimeSlots()[11].endTime) == 16 * 60 + 40
  {
    assert TimeSlots()[0] == PeriodSlot(0);
    assert TimeSlots()[11] == PeriodSlot(11);
  }

  /** The first period starts at "07:10". */
  lemma TimeSlotsFirstStart()
    ensures TimeSlots()[0].value == "07:10"
  {
    assert TimeSlots()[0] == PeriodSlot(0);
    assert 430 / 60 == 7 && 430 % 60 == 10;
    assert DigitChar(0) == '0' && DigitChar(7) == '7' && DigitChar(1) == '1';
  }

  /** The last period ends at "16:40". */
  lemma TimeSlotsLastEnd()
    ensures TimeSlots()[11].endTime == "16:40"
  {
    assert TimeSlots()[11] == PeriodSlot(11);
    assert 1000 / 60 == 16 && 1000 % 60 == 40;
    assert DigitChar(1) == '1' && DigitChar(6) == '6' && DigitChar(4) == '4' && DigitChar(0) == '0';
  }

  /** A slot's start in minutes after midnight (zero for a malformed start). */
  function SlotStart(slot: Slot): int {
    if |slot.value| == 5 then ClockMinutes(slot.value) else 0
  }

  /** Start times strictly increase down the timetable. */
  lemma TimeSlotsOrdered(i: int, j: int)
    requires 0 <= i < j < 12
    ensures ClockMinutes(TimeSlots()[i].value) < ClockMinutes(TimeSlots()[j].value)
  {
    PeriodBoundIncreasing(i, j);
  }

  /** The timetable as a whole is ordered by start time. */
  lemma TimeSlotsIncreasing()
    ensures StrictlyIncreasing(TimeSlots(), SlotStart)
  {
    forall i, j | 0 <= i < j < 12
      ensures SlotStart(TimeSlots()[i]) < SlotStart(TimeSlots()[j])
    {
      TimeSlotsOrdered(i, j);
    }
  }

  /** No two timetable entries share a start time. */
  lemma TimeSlotValuesDistinct(i: int, j: int)
    requires 0 <= i < 12 && 0 <= j < 12 && i != j
    ensures TimeSlots()[i].value != TimeSlots()[j].value
  {
    if i < j {
      TimeSlotsOrdered(i, j);
    } else {
      TimeSlotsOrdered(j, i);
    }
  }

  // ---------------------------------------------------------------------
  // Availability and the weekly quota

  /** The availability test's match: same calendar key, same start time. */
  predicate Occupies(b: Booking, key: string, startTime: string) {
    FormatDateForCalendar(b.date) == key && b.startTime == startTime
  }

  /** Matching on the key is matching on the day. */
  lemma OccupiesIffSameDay(date: Instant, startTime: string)
    ensures forall b: Booking :: Occupies(b, FormatDateForCalendar(date), startTime)
                                 <==> DayOf(b.date) == DayOf(date) && b.startTime == startTime
  {
    forall b: Booking {
      SameKeyIffSameDay(b.date, date);
    }
  }

  /** `isTimeSlotAvailable`: no booking holds the same start time on the same day. */
  function IsTimeSlotAvailable(date: Instant, startTime: string, bookings: seq<Booking>): (r: bool)
    ensures r <==> forall b :: b in bookings ==> !(DayOf(b.date) == DayOf(date) && b.startTime == startTime)
  {
    var key := FormatDateForCalendar(date);
    OccupiesIffSameDay(date, startTime);
    Find(bookings, b => Occupies(b, key, startTime)).None?
  }

  /** Removing bookings never makes a free slot taken. */
  lemma AvailableAntitone(date: Instant, startTime: string, fewer: seq<Booking>, more: seq<Booking>)
    requires forall b :: b in fewer ==> b in more
    ensures IsTimeSlotAvailable(date, startTime, more) ==> IsTimeSlotAvailable(date, startTime, fewer)
  {
  }

  /** The bookings of `teacherId` in the Sunday-to-Saturday week that contains `now`. */
  predicate InCurrentWeek(b: Booking, teacherId: Id, now: Instant) {
    b.teacherId == teacherId && WeekStart(DayOf(b.date)) == WeekStart(DayOf(now))
  }

  function CurrentWeekBookings(teacherId: Id, bookings: seq<Booking>, now: Instant): seq<Booking> {
    Filter(bookings, b => InCurrentWeek(b, teacherId, now))
  }

  /** An instant lies between the Sunday midnight opening the week of `now`
      and the last millisecond of that Saturday exactly when its day shares
      that week. */
  lemma WeekWindow(now: Instant)
    ensures var first := WeekStart(DayOf(now)) * MsPerDay;
      forall t: Instant ::
        (first <= t <= first + 7 * MsPerDay - 1) <==> WeekStart(DayOf(t)) == WeekStart(DayOf(now))
  {
    var ws := WeekStart(DayOf(now));
    forall t: Instant
      ensures ws * MsPerDay <= t <= ws * MsPerDay + 7 * MsPerDay - 1 <==> WeekStart(DayOf(t)) == ws
    {
      SameWeekIffSameStart(DayOf(now), DayOf(t));
      SameWeekIffSameStart(DayOf(t), DayOf(now));
      assert ws * MsPerDay <= t < (ws + 7) * MsPerDay <==> ws <= DayOf(t) < ws + 7;
    }
  }

  /** `countTeacherBookingsInCurrentWeek`: the teacher's bookings from Sunday
      00:00:00.000 through Saturday 23:59:59.999 of the week of `now`. */
  function CountTeacherBookingsInCurrentWeek(teacherId: Id, bookings: seq<Booking>, now: Instant): (n: nat)
    ensures n <= |bookings|
    ensures n == |CurrentWeekBookings(teacherId, bookings, now)|
  {
    var firstDayOfWeek := WeekStart(DayOf(now)) * MsPerDay;
    var lastDayOfWeek := firstDayOfWeek + 6 * MsPerDay + 23 * MsPerHour + 59 * 60_000 + 59 * 1000 + 999;
    WeekWindow(now);
    FilterCongruent(bookings, (b: Booking) => b.teacherId == teacherId && firstDayOfWeek <= b.date <= lastDayOfWeek,
                    b => InCurrentWeek(b, teacherId, now));
    |Filter(bookings, (b: Booking) => b.teacherId == teacherId && firstDayOfWeek <= b.date <= lastDayOfWeek)|
  }

  /** One more booking raises the count by one exactly when it is the teacher's
      and falls in the current week; other teachers' bookings never count. */
  lemma {:induction false} CountAppend(teacherId: Id, bookings: seq<Booking>, b: Booking, now: Instant)
    ensures CountTeacherBookingsInCurrentWeek(teacherId, bookings + [b], now)
            == CountTeacherBookingsInCurrentWeek(teacherId, bookings, now)
               + (if InCurrentWeek(b, teacherId, now) then 1 else 0)
  {
    FilterAppend(bookings, [b], b' => InCurrentWeek(b', teacherId, now));
  }

  /** The bookings whose calendar key is `key`, in stored order. */
  function BookingsOn(all: seq<Booking>, key: string): (r: seq<Booking>)
    ensures forall b :: b in r <==> b in all && FormatDateForCalendar(b.date) == key
  {
    Filter(all, (b: Booking) => FormatDateForCalendar(b.date) == key)
  }
}

=== FILE: home.dfy ===
/**
 The two views of the home screen (AgendaLei/src/screens/HomeScreen.js):
 the teacher's next three bookings, and the next five weekdays that still
 have a free period.
 */
module Home {
  import opened Wrappers
  import opened Calendar
  import opened Records
  import opened Seqs
  import opened Sorting
  import opened DateUtils

  // ---------------------------------------------------------------------
  // Upcoming bookings

  /** A booking of `teacherId` dated today or later. */
  predicate IsUpcoming(b: Booking, teacherId: Id, now: Instant) {
    b.teacherId == teacherId && b.date >= StartOfDay(now)
  }

  /** The teacher's bookings from today's midnight on, in stored order. */
  function UpcomingOf(all: seq<Booking>, teacherId: Id, now: Instant): (r: seq<Booking>)
    ensures forall b :: b in r <==> b in all && b.teacherId == teacherId && b.date >= StartOfDay(now)
    ensures multiset(r) <= multiset(all)
  {
    Filter(all, b => IsUpcoming(b, teacherId, now))
  }

  /** The upcoming list of `loadData`: the teacher's bookings dated today or
      later, earliest first, at most three. */
  function Upcoming(all: seq<Booking>, teacherId: Id, now: Instant): (r: seq<Booking>)
    ensures |r| == if |UpcomingOf(all, teacherId, now)| < 3 then |UpcomingOf(all, teacherId, now)| else 3
    ensures forall b :: b in r ==> b in all && b.teacherId == teacherId && DayOf(b.date) >= DayOf(now)
    ensures multiset(r) <= multiset(UpcomingOf(all, teacherId, now))
    ensures |UpcomingOf(all, teacherId, now)| <= 3 ==> multiset(r) == multiset(UpcomingOf(all, teacherId, now))
    ensures SortedBy(r, DateOf)
    ensures forall b, c :: b in r && c in UpcomingOf(all, teacherId, now) && c !in r ==> b.date <= c.date
  {
    var teacherBookings := UpcomingOf(all, teacherId, now);
    UpcomingIsToday(teacherBookings, teacherId, now);
    var r := SortedTake(teacherBookings, DateOf, 3);
    assert forall b, c :: b in r && c in teacherBookings && c !in r ==> b.date <= c.date by {
      forall b, c | b in r && c in teacherBookings && c !in r
        ensures b.date <= c.date
      {
        assert DateOf(b) <= DateOf(c);
      }
    }
    r
  }

  /** Every upcoming booking falls on today or a later day. */
  lemma UpcomingIsToday(s: seq<Booking>, teacherId: Id, now: Instant)
    requires forall b :: b in s ==> IsUpcoming(b, teacherId, now)
    ensures forall b :: b in s ==> DayOf(b.date) >= DayOf(now)
  {
    forall b | b in s
      ensures DayOf(b.date) >= DayOf(now)
    {
      assert b.date >= StartOfDay(now);
    }
  }

  // ---------------------------------------------------------------------
  // Next available days

  /** `bookingsForDay.some(b => b.startTime === slot.value)`. */
  predicate IsBooked(slot: Slot, bookingsForDay: seq<Booking>) {
    exists b :: b in bookingsForDay && b.startTime == slot.value
  }

  /** A period is booked on a day exactly when some stored booking with that
      day's key starts at it. */
  lemma BookedMeansBookingOnDay(key: string, all: seq<Booking>)
    ensures forall slot :: IsBooked(slot, BookingsOn(all, key)) <==>
              exists b :: b in all && FormatDateForCalendar(b.date) == key && b.startTime == slot.value
  {
    forall slot
      ensures IsBooked(slot, BookingsOn(all, key)) <==>
                exists b :: b in all && FormatDateForCalendar(b.date) == key && b.startTime == slot.value
    {
      if IsBooked(slot, BookingsOn(all, key)) {
        var b :| b in BookingsOn(all, key) && b.startTime == slot.value;
        assert b in all;
      }
    }
  }

  /** The `forEach` over the timetable: the periods no booking of the day
      starts at, in timetable order. */
  function UnbookedSlots(timeSlots: seq<Slot>, bookingsForDay: seq<Booking>): (r: seq<Slot>)
    ensures |r| <= |timeSlots|
    ensures forall s :: s in r <==> s in timeSlots && !IsBooked(s, bookingsForDay)
    ensures StrictlyIncreasing(timeSlots, SlotStart) ==> StrictlyIncreasing(r, SlotStart)
  {
    FilterKeepsIncreasing(timeSlots, (slot: Slot) => !IsBooked(slot, bookingsForDay), SlotStart);
    Filter(timeSlots, (slot: Slot) => !IsBooked(slot, bookingsForDay))
  }

  /** The timetable periods of the day with key `key` that no booking starts
      at, in timetable order. */
  function FreeSlots(key: string, all: seq<Booking>): (r: seq<Slot>)
    ensures |r| <= 12
    ensures forall s :: s in r <==>
              s in TimeSlots() && forall b :: b in all && FormatDateForCalendar(b.date) == key ==> b.startTime != s.value
    ensures StrictlyIncreasing(r, SlotStart)
  {
    BookedMeansBookingOnDay(key, all);
    TimeSlotsIncreasing();
    UnbookedSlots(TimeSlots(), BookingsOn(all, key))
  }

  /** A day that no booking falls on has every period free. */
  lemma FreeDayHasSlots(day: int, all: seq<Booking>)
    requires forall b :: b in all ==> DayOf(b.date) != day
    ensures FreeSlots(KeyOfDay(day), all) == TimeSlots()
  {
    var key := KeyOfDay(day);
    forall b | b in all
      ensures FormatDateForCalendar(b.date) != key
    {
      KeyOfDayInjective(DayOf(b.date), day);
    }
    FilterKeepsAll(TimeSlots(), (slot: Slot) => !IsBooked(slot, BookingsOn(all, key)));
    assert UnbookedSlots(TimeSlots(), BookingsOn(all, key)) == TimeSlots();
  }

  /** One entry of the list: the day's key, its day of the month, and its free periods. */
  datatype AvailableDay = AvailableDay(date: string, dayNumber: int, slots: seq<Slot>)

  /** The day's free periods, stated by day index rather than by key. */
  lemma FreeSlotsOfDay(day: int, all: seq<Booking>)
    ensures forall s :: s in FreeSlots(KeyOfDay(day), all) <==>
              s in TimeSlots() && forall b :: b in all && DayOf(b.date) == day ==> b.startTime != s.value
  {
    forall b | b in all
      ensures FormatDateForCalendar(b.date) == KeyOfDay(day) <==> DayOf(b.date) == day
    {
      KeyOfDayInjective(DayOf(b.date), day);
    }
  }

  /** One entry of the list: the day's key, the day of the month that key
      names, and the periods no booking of that day starts at. */
  function DayEntry(day: int, all: seq<Booking>): (e: AvailableDay)
    ensures |e.date| >= 6 && ParseCalendarKey(e.date) == CivilFromDay(day)
    ensures e.dayNumber == ParseCalendarKey(e.date).day
    ensures forall s :: s in e.slots <==>
              s in TimeSlots() && forall b :: b in all && DayOf(b.date) == day ==> b.startTime != s.value
  {
    FreeSlotsOfDay(day, all);
    AvailableDay(KeyOfDay(day), CivilFromDay(day).day, FreeSlots(KeyOfDay(day), all))
  }

  /** Monday to Friday. */
  predicate IsWeekday(day: int) {
    Weekday(day) != 0 && Weekday(day) != 6
  }

  /** A day the list may show: a weekday with at least one free period. */
  predicate Qualifies(day: int, all: seq<Booking>) {
    IsWeekday(day) && |FreeSlots(KeyOfDay(day), all)| > 0
  }

  /** How many bookings fall on `day` or later; it bounds the full days ahead. */
  function BookingsFrom(all: seq<Booking>, day: int): nat {
    |Filter(all, (b: Booking) => DayOf(b.date) >= day)|
  }

  /** Moving one day on never adds bookings ahead, and passing a booked day drops one. */
  lemma BookingsFromStep(all: seq<Booking>, day: int)
    ensures BookingsFrom(all, day + 1) <= BookingsFrom(all, day)
    ensures (exists b :: b in all && DayOf(b.date) == day) ==> BookingsFrom(all, day + 1) < BookingsFrom(all, day)
  {
    FilterStronger(all, (b: Booking) => DayOf(b.date) >= day, (b: Booking) => DayOf(b.date) >= day + 1);
  }

  /** A weekday left out for want of a free period has a booking on it. */
  lemma FullDayIsBooked(day: int, all: seq<Booking>)
    requires |FreeSlots(KeyOfDay(day), all)| == 0
    ensures exists b :: b in all && DayOf(b.date) == day
  {
    if forall b :: b in all ==> DayOf(b.date) != day {
      FreeDayHasSlots(day, all);
      assert false;
    }
  }

  /** Weekend days left to skip before the next Monday. */
  function WeekendRank(day: int): nat {
    if Weekday(day) == 6 then 2 else if Weekday(day) == 0 then 1 else 0
  }

  /** What is left to skip from `day` on: a full weekday needs a booking on it,
      and a weekend ends within two days. */
  function SkipBound(all: seq<Booking>, day: int): nat {
    3 * BookingsFrom(all, day) + WeekendRank(day)
  }

  /** Passing over a day the list does not take brings the search closer to its end. */
  lemma SkipDecreases(all: seq<Booking>, day: int)
    requires !Qualifies(day, all)
    ensures SkipBound(all, day + 1) < SkipBound(all, day)
  {
    BookingsFromStep(all, day);
    WeekdayNext(day);
    if IsWeekday(day) {
      FullDayIsBooked(day, all);
    }
  }

  /** What the walk takes from day index `day`: the day's entry when it is a
      weekday with a free period, nothing otherwise. */
  function DayStep(day: int, all: seq<Booking>): (r: Option<AvailableDay>)
    ensures r.Some? <==> Qualifies(day, all)
    ensures r.Some? ==> r.value == DayEntry(day, all)
  {
    if Weekday(day) == 0 || Weekday(day) == 6 then None
    else
      var entry := DayEntry(day, all);
      if |entry.slots| > 0 then Some(entry) else None
  }

  /** What a walk over `DayStep` collected: the entries of qualifying days,
      and every qualifying day up to the last one taken. */
  lemma WalkOverDays(all: seq<Booking>, step: int -> Option<AvailableDay>, today: int,
                     availableDays: seq<AvailableDay>, picked: seq<int>)
    requires forall d :: step(d) == DayStep(d, all)
    requires |availableDays| == 5 && |picked| == 5
    requires forall i :: 0 <= i < 5 ==> step(picked[i]) == Some(availableDays[i])
    requires forall d :: today <= d <= picked[4] && step(d).Some? ==> d in picked
    ensures forall i :: 0 <= i < 5 ==> availableDays[i] == DayEntry(picked[i], all) && Qualifies(picked[i], all)
    ensures forall d :: today <= d <= picked[4] && Qualifies(d, all) ==> d in picked
  {
    forall i | 0 <= i < 5
      ensures availableDays[i] == DayEntry(picked[i], all) && Qualifies(picked[i], all)
    {
      assert DayStep(picked[i], all) == Some(availableDays[i]);
    }
    forall d | today <= d <= picked[4] && Qualifies(d, all)
      ensures d in picked
    {
      assert step(d).Some?;
    }
  }

  /** Every day the walk passes over brings it closer to its end. */
  lemma SkipStepDecreases(all: seq<Booking>, step: int -> Option<AvailableDay>, bound: int -> nat)
    requires forall d :: step(d) == DayStep(d, all)
    requires forall d :: bound(d) == SkipBound(all, d)
    ensures forall d :: step(d).None? ==> bound(d + 1) < bound(d)
  {
    forall d | step(d).None?
      ensures bound(d + 1) < bound(d)
    {
      SkipDecreases(all, d);
    }
  }

  /** The loop of `calculateAvailableSlots`: from day `today` on, one day at a
      time, keep what `step` yields until five entries are collected. `bound`
      shrinks on every day that yields nothing, which ends the walk. */
  method Walk(today: int, step: int -> Option<AvailableDay>, bound: int -> nat)
    returns (availableDays: seq<AvailableDay>, picked: seq<int>)
    requires forall d :: step(d).None? ==> bound(d + 1) < bound(d)
    ensures |availableDays| == 5 && |picked| == 5
    ensures forall i :: 0 <= i < 5 ==> step(picked[i]) == Some(availableDays[i])
    ensures forall i, j :: 0 <= i < j < 5 ==> picked[i] < picked[j]
    ensures today <= picked[0]
    ensures forall d :: today <= d <= picked[4] && step(d).Some? ==> d in picked
  {
    availableDays, picked := [], [];
    var cur := today;
    while |availableDays| < 5
      invariant today <= cur
      invariant |availableDays| == |picked| <= 5
      invariant forall i :: 0 <= i < |picked| ==> step(picked[i]) == Some(availableDays[i])
      invariant forall i :: 0 <= i < |picked| ==> today <= picked[i] < cur
      invariant forall i, j :: 0 <= i < j < |picked| ==> picked[i] < picked[j]
      invariant forall d :: today <= d < cur && step(d).Some? ==> d in picked
      decreases 5 - |availableDays|, bound(cur)
    {
      var entry := step(cur);
      if entry.Some? {
        availableDays := availableDays + [entry.value];
        picked := picked + [cur];
      }
      cur := cur + 1;
    }
  }

  /** `calculateAvailableSlots`: walks forward from today, skipping weekends
      and fully booked weekdays, until five days with a free period are found.
      The walk's current date is kept as its day index; `picked` holds the day
      indices of the entries. */
  method CalculateAvailableSlots(all: seq<Booking>, now: Instant) returns (availableDays: seq<AvailableDay>, picked: seq<int>)
    ensures |availableDays| == 5 && |picked| == 5
    ensures forall i :: 0 <= i < 5 ==> availableDays[i] == DayEntry(picked[i], all) && Qualifies(picked[i], all)
    ensures forall i, j :: 0 <= i < j < 5 ==> picked[i] < picked[j]
    ensures DayOf(now) <= picked[0]
    ensures forall day :: DayOf(now) <= day <= picked[4] && Qualifies(day, all) ==> day in picked
  {
    var step := (d: int) => DayStep(d, all);
    var bound := (d: int) => SkipBound(all, d);
    assert forall d :: step(d) == DayStep(d, all);
    SkipStepDecreases(all, step, bound);
    availableDays, picked := Walk(DayOf(now), step, bound);
    WalkOverDays(all, step, DayOf(now), availableDays, picked);
  }
}

=== FILE: my_bookings.dfy ===
/**
 The teacher's own booking list (AgendaLei/src/screens/MyBookingsScreen.js):
 how the list is arranged, when the cancel button is shown, and the cancel
 gate. "Now" and the user's answer to the confirmation are arguments.
 */
module MyBookings {
  import opened Calendar
  import opened Records
  import opened Seqs
  import opened Sorting
  import opened DateUtils
  import opened Store

  // ---------------------------------------------------------------------
  // The list

  /** The descending sort key: later dates first. */
  function LaterFirst(b: Booking): int {
    -b.date
  }

  /** Ascending order of `LaterFirst` is descending order of dates, as the
      comparator `b.date - a.date` gives. */
  lemma LaterFirstDescending(a: Booking, c: Booking)
    ensures LaterFirst(a) <= LaterFirst(c) <==> c.date <= a.date
  {
  }

  /** The order the list promises between two of its entries: bookings still
      ahead before past ones, bookings ahead earliest first, past bookings
      latest first. */
  predicate ListedBefore(a: Booking, c: Booking, now: Instant) {
    || (!IsPastDate(a.date, now) && IsPastDate(c.date, now))
    || (!IsPastDate(a.date, now) && !IsPastDate(c.date, now) && a.date <= c.date)
    || (IsPastDate(a.date, now) && IsPastDate(c.date, now) && a.date >= c.date)
  }

  /** Bookings ahead sorted ascending, then past bookings sorted descending,
      are listed in the promised order. */
  lemma ConcatListed(future: seq<Booking>, older: seq<Booking>, now: Instant)
    requires forall b :: b in future ==> !IsPastDate(b.date, now)
    requires forall b :: b in older ==> IsPastDate(b.date, now)
    requires SortedBy(future, DateOf) && SortedBy(older, LaterFirst)
    ensures forall i, j :: 0 <= i < j < |future + older| ==> ListedBefore((future + older)[i], (future + older)[j], now)
  {
    var r := future + older;
    forall i, j | 0 <= i < j < |r|
      ensures ListedBefore(r[i], r[j], now)
    {
      if j < |future| {
        assert DateOf(future[i]) <= DateOf(future[j]);
        assert future[i] in future && future[j] in future;
      } else if i >= |future| {
        assert LaterFirst(older[i - |future|]) <= LaterFirst(older[j - |future|]);
        assert older[i - |future|] in older && older[j - |future|] in older;
      } else {
        assert future[i] in future && older[j - |future|] in older;
      }
    }
  }

  /** The list `loadBookings` shows: exactly the teacher's bookings, the ones
      ahead (today included) first and earliest first, then the past ones
      latest first. */
  function ArrangeBookings(all: seq<Booking>, teacherId: Id, now: Instant): (r: seq<Booking>)
    ensures multiset(r) == multiset(GetBookingsByTeacher(all, teacherId))
    ensures forall i, j :: 0 <= i < j < |r| ==> ListedBefore(r[i], r[j], now)
  {
    var teacherBookings := GetBookingsByTeacher(all, teacherId);
    var past := (b: Booking) => IsPastDate(b.date, now);
    var ahead := (b: Booking) => !IsPastDate(b.date, now);
    var futureBookings := Filter(teacherBookings, ahead);
    var pastBookings := Filter(teacherBookings, past);
    FilterPartition(teacherBookings, past, ahead);
    var future := SortBy(futureBookings, DateOf);
    var older := SortBy(pastBookings, LaterFirst);
    SortByMembers(futureBookings, DateOf);
    SortByMembers(pastBookings, LaterFirst);
    ConcatListed(future, older, now);
    assert multiset(future + older) == multiset(futureBookings) + multiset(pastBookings);
    future + older
  }

  /** Every listed booking is one of the teacher's, and every one of the
      teacher's bookings is listed. */
  lemma ArrangedMembers(all: seq<Booking>, teacherId: Id, now: Instant)
    ensures forall b :: b in ArrangeBookings(all, teacherId, now) <==> b in all && b.teacherId == teacherId
  {
    var r := ArrangeBookings(all, teacherId, now);
    forall b
      ensures b in r <==> b in all && b.teacherId == teacherId
    {
      assert b in r <==> b in multiset(r);
      assert b in GetBookingsByTeacher(all, teacherId) <==> b in multiset(GetBookingsByTeacher(all, teacherId));
    }
  }

  // ---------------------------------------------------------------------
  // Cancelling

  /** `renderBookingItem`: the cancel button shows under every booking that is
      not past, that is, dated today or later. */
  function ShowsCancelButton(b: Booking, now: Instant): (r: bool)
    ensures r <==> DayOf(b.date) >= DayOf(now)
  {
    !IsPastDate(b.date, now)
  }

  /** Every booking the gate lets through shows its button. */
  lemma CancellableShowsButton(b: Booking, now: Instant)
    ensures CanCancelBooking(b.date, now) ==> ShowsCancelButton(b, now)
  {
    CancellableIsNotPast(b.date, now);
  }

  /** The button is shown on bookings the gate refuses: a booking an hour
      away shows it, and pressing it is refused for being under 24 hours away. */
  lemma ButtonShownButRefused(b: Booking, now: Instant)
    requires b.date == now + MsPerHour
    ensures ShowsCancelButton(b, now) && !CanCancelBooking(b.date, now)
  {
    assert DayOf(b.date) >= DayOf(now);
  }

  /** What pressing "cancel" leads to. */
  datatype CancelOutcome =
    | TooLate
    | Declined
    | Cancelled(store: seq<Booking>)

  /** `handleCancelBooking`: a booking less than 24 hours away is refused;
      otherwise, once the user confirms, every record with its id is deleted. */
  function HandleCancelBooking(booking: Booking, store: seq<Booking>, now: Instant, confirmed: bool): (r: CancelOutcome)
    ensures r == TooLate <==> booking.date - now < MsPerDay
    ensures r.Cancelled? <==> booking.date - now >= MsPerDay && confirmed
    ensures r.Cancelled? ==> forall b :: b in r.store <==> b in store && b.id != booking.id
  {
    if !CanCancelBooking(booking.date, now) then TooLate
    else if !confirmed then Declined
    else Cancelled(DeleteBooking(store, booking.id))
  }

  /** After a cancellation the reloaded list no longer holds the booking's id,
      and still holds every other booking of the teacher. */
  lemma CancelledLeavesList(booking: Booking, store: seq<Booking>, teacherId: Id, now: Instant)
    requires HandleCancelBooking(booking, store, now, true).Cancelled?
    ensures var after := HandleCancelBooking(booking, store, now, true).store;
      forall b :: b in ArrangeBookings(after, teacherId, now) <==>
                    b in store && b.teacherId == teacherId && b.id != booking.id
  {
    ArrangedMembers(HandleCancelBooking(booking, store, now, true).store, teacherId, now);
  }
}

=== FILE: records.dfy ===
/**
 The records the scheduler stores and passes between screens. Instants are
 integer milliseconds (see module Calendar); every other field is a string
 except the head count.
 */
module Records {
  import opened Wrappers
  import opened Calendar

  type Id = string

  /** One period of the daily timetable: `value` is its "HH:MM" start and
      `caption` is the source's `label` (a reserved word in Dafny). */
  datatype Slot = Slot(caption: string, value: string, endTime: string)

  /** A registered teacher; `email` is the key registration upserts on. */
  datatype Teacher = Teacher(
    id: Id,
    name: string,
    email: string,
    disciplina: string,
    phone: string,
    createdAt: Instant)

  /** The object the registration form hands to `saveTeacher`: no id, no creation stamp. */
  datatype TeacherProfile = TeacherProfile(
    name: string,
    email: string,
    disciplina: string,
    phone: string)

  /** A stored reservation of one slot on one day. */
  datatype Booking = Booking(
    id: Id,
    teacherId: Id,
    teacherName: string,
    teacherEmail: string,
    disciplina: string,
    className: string,
    activity: string,
    numStudents: int,
    date: Instant,
    startTime: string,
    endTime: string,
    status: string,
    createdAt: Instant)

  /** The object the booking form hands to `saveBooking`: every booking field
      except the creation stamp, and an id only when an existing booking is edited. */
  datatype BookingDraft = BookingDraft(
    id: Option<Id>,
    teacherId: Id,
    teacherName: string,
    teacherEmail: string,
    disciplina: string,
    className: string,
    activity: string,
    numStudents: int,
    date: Instant,
    startTime: string,
    endTime: string,
    status: string)

  /** The booking date, the sort key of every booking list. */
  function DateOf(b: Booking): int {
    b.date
  }
}

=== FILE: seqs.dfy ===
/**
 The two JavaScript array operations the booking code leans on,
 `Array.prototype.filter` and `Array.prototype.find`, as pure functions on
 sequences, with the facts the rest of the model needs about them.
 */
module Seqs {
  import opened Wrappers

  /** `s.filter(p)`: the elements satisfying `p`, in their original order. */
  function Filter<T(!new)>(s: seq<T>, p: T -> bool): (r: seq<T>)
    ensures |r| <= |s|
    ensures forall x :: x in r <==> x in s && p(x)
    ensures multiset(r) <= multiset(s)
  {
    if |s| == 0 then []
    else
      assert s == [s[0]] + s[1..];
      if p(s[0]) then [s[0]] + Filter(s[1..], p) else Filter(s[1..], p)
  }

  /** `s.find(p)`: the first element satisfying `p`, or `undefined`. */
  function Find<T(!new)>(s: seq<T>, p: T -> bool): (r: Option<T>)
    ensures r.None? <==> forall x :: x in s ==> !p(x)
    ensures r.Some? ==> exists i :: 0 <= i < |s| && s[i] == r.value && p(s[i])
                                    && forall j :: 0 <= j < i ==> !p(s[j])
  {
    if |s| == 0 then None
    else if p(s[0]) then Some(s[0])
    else Find(s[1..], p)
  }

  /** `s.findIndex(p)`: the index of the first element satisfying `p`, or -1. */
  function FindIndex<T>(s: seq<T>, p: T -> bool): (r: int)
    ensures -1 <= r < |s|
    ensures r == -1 <==> forall i :: 0 <= i < |s| ==> !p(s[i])
    ensures 0 <= r ==> p(s[r]) && forall j :: 0 <= j < r ==> !p(s[j])
  {
    if |s| == 0 then -1
    else if p(s[0]) then 0
    else
      var k := FindIndex(s[1..], p);
      if k == -1 then -1 else k + 1
  }

  /** Filtering distributes over concatenation, which is what "order is kept" means for a filter. */
  lemma {:induction false} FilterAppend<T(!new)>(s: seq<T>, t: seq<T>, p: T -> bool)
    ensures Filter(s + t, p) == Filter(s, p) + Filter(t, p)
  {
    if |s| > 0 {
      assert (s + t)[1..] == s[1..] + t;
      FilterAppend(s[1..], t, p);
    } else {
      assert s + t == t;
    }
  }

  /** One more element joins the filtered sequence exactly when it passes. */
  lemma FilterSnoc<T(!new)>(s: seq<T>, x: T, p: T -> bool)
    ensures Filter(s + [x], p) == if p(x) then Filter(s, p) + [x] else Filter(s, p)
  {
    FilterAppend(s, [x], p);
    assert [x][1..] == [];
  }

  /** A filter whose predicate holds everywhere on `s` leaves `s` as it is. */
  lemma {:induction false} FilterKeepsAll<T(!new)>(s: seq<T>, p: T -> bool)
    requires forall x :: x in s ==> p(x)
    ensures Filter(s, p) == s
  {
    if |s| > 0 {
      FilterKeepsAll(s[1..], p);
    }
  }

  /** Predicates that agree on the elements of `s` filter it alike. */
  lemma {:induction false} FilterCongruent<T(!new)>(s: seq<T>, p: T -> bool, q: T -> bool)
    requires forall x :: x in s ==> p(x) == q(x)
    ensures Filter(s, p) == Filter(s, q)
  {
    if |s| > 0 {
      FilterCongruent(s[1..], p, q);
    }
  }

  /** A predicate `p` and its complement `q` split `s` into two parts that together hold every element. */
  lemma {:induction false} FilterPartition<T(!new)>(s: seq<T>, p: T -> bool, q: T -> bool)
    requires forall x :: q(x) == !p(x)
    ensures multiset(Filter(s, p)) + multiset(Filter(s, q)) == multiset(s)
  {
    if |s| > 0 {
      FilterPartition(s[1..], p, q);
      assert s == [s[0]] + s[1..];
    }
  }

  /** Keys strictly increase along the sequence. */
  ghost predicate StrictlyIncreasing<T>(s: seq<T>, key: T -> int) {
    forall i, j :: 0 <= i < j < |s| ==> key(s[i]) < key(s[j])
  }

  /** An element below everything in an increasing sequence can lead it. */
  lemma ConsIncreasing<T>(x: T, rest: seq<T>, key: T -> int)
    requires StrictlyIncreasing(rest, key)
    requires forall y :: y in rest ==> key(x) < key(y)
    ensures StrictlyIncreasing([x] + rest, key)
  {
    var r := [x] + rest;
    forall i, j | 0 <= i < j < |r|
      ensures key(r[i]) < key(r[j])
    {
      assert r[j] == rest[j - 1] && rest[j - 1] in rest;
      if i > 0 {
        assert r[i] == rest[i - 1];
      }
    }
  }

  /** Filtering keeps the order of what it keeps. */
  lemma {:induction false} FilterKeepsIncreasing<T(!new)>(s: seq<T>, p: T -> bool, key: T -> int)
    ensures StrictlyIncreasing(s, key) ==> StrictlyIncreasing(Filter(s, p), key)
  {
    if |s| > 0 && StrictlyIncreasing(s, key) {
      var rest := Filter(s[1..], p);
      assert StrictlyIncreasing(s[1..], key);
      FilterKeepsIncreasing(s[1..], p, key);
      if p(s[0]) {
        forall x | x in rest
          ensures key(s[0]) < key(x)
        {
          var m :| 0 <= m < |s[1..]| && s[1..][m] == x;
          assert s[m + 1] == x;
        }
        ConsIncreasing(s[0], rest, key);
      }
    }
  }

  /** A stronger test keeps no more elements, and strictly fewer when the
      weaker test keeps some element the stronger one drops. */
  lemma {:induction false} FilterStronger<T(!new)>(s: seq<T>, p: T -> bool, q: T -> bool)
    requires forall x :: q(x) ==> p(x)
    ensures |Filter(s, q)| <= |Filter(s, p)|
    ensures (exists x :: x in s && p(x) && !q(x)) ==> |Filter(s, q)| < |Filter(s, p)|
  {
    if |s| > 0 {
      FilterStronger(s[1..], p, q);
      if exists x :: x in s && p(x) && !q(x) {
        var x :| x in s && p(x) && !q(x);
        if x != s[0] {
          assert x in s[1..];
        }
      }
    }
  }
}

=== FILE: sorting.dfy ===
/**
 `Array.prototype.sort` with a numeric comparator, as the screens use it to
 order bookings by date: a stable insertion sort on sequences, keyed by an
 integer. Sorting by the negated key gives the descending order.
 */
module Sorting {

  /** Keys never decrease along the sequence. */
  ghost predicate SortedBy<T>(s: seq<T>, key: T -> int) {
    forall i, j :: 0 <= i < j < |s| ==> key(s[i]) <= key(s[j])
  }

  /** The head of a sorted sequence, no later than `x`, may open any sorted
      sequence made of `x` and the tail's elements. */
  lemma HeadBeforeRest<T>(s: seq<T>, x: T, rest: seq<T>, key: T -> int)
    requires |s| > 0 && SortedBy(s, key) && key(s[0]) <= key(x)
    requires SortedBy(rest, key)
    requires forall y :: y in rest ==> y in s[1..] || y == x
    ensures SortedBy([s[0]] + rest, key)
  {
    forall y | y in rest
      ensures key(s[0]) <= key(y)
    {
      if y != x {
        var k :| 0 <= k < |s[1..]| && s[1..][k] == y;
        assert s[k + 1] == y;
      }
    }
    var r := [s[0]] + rest;
    forall i, j | 0 <= i < j < |r|
      ensures key(r[i]) <= key(r[j])
    {
      assert r[j] == rest[j - 1];
      if 0 < i {
        assert r[i] == rest[i - 1];
      }
    }
  }

  /** Places `x` after every element whose key is not greater than its own. */
  function Insert<T(==)>(x: T, s: seq<T>, key: T -> int): (r: seq<T>)
    requires SortedBy(s, key)
    ensures |r| == |s| + 1
    ensures multiset(r) == multiset(s) + multiset{x}
    ensures forall y :: y in r ==> y in s || y == x
    ensures SortedBy(r, key)
  {
    if |s| == 0 then [x]
    else if key(x) < key(s[0]) then
      [x] + s
    else
      var rest := Insert(x, s[1..], key);
      assert s == [s[0]] + s[1..];
      HeadBeforeRest(s, x, rest, key);
      [s[0]] + rest
  }

  /** `s.sort((a, b) => key(a) - key(b))`. */
  function SortBy<T(==)>(s: seq<T>, key: T -> int): (r: seq<T>)
    ensures |r| == |s|
    ensures multiset(r) == multiset(s)
    ensures SortedBy(r, key)
  {
    if |s| == 0 then []
    else
      assert s == s[..|s| - 1] + [s[|s| - 1]];
      Insert(s[|s| - 1], SortBy(s[..|s| - 1], key), key)
  }

  /** Sorting keeps exactly the elements it was given. */
  lemma SortByMembers<T>(s: seq<T>, key: T -> int)
    ensures forall x :: x in SortBy(s, key) <==> x in s
  {
    var r := SortBy(s, key);
    forall x
      ensures x in r <==> x in s
    {
      assert x in r <==> x in multiset(r);
      assert x in s <==> x in multiset(s);
    }
  }

  /** A prefix of a sorted sequence holds its smallest keys: nothing left out
      of the prefix comes before anything in it. */
  lemma SortedPrefixEarliest<T>(sorted: seq<T>, k: nat, key: T -> int)
    requires SortedBy(sorted, key) && k <= |sorted|
    ensures forall b, c :: b in sorted[..k] && c in sorted && c !in sorted[..k] ==> key(b) <= key(c)
  {
    forall b, c | b in sorted[..k] && c in sorted && c !in sorted[..k]
      ensures key(b) <= key(c)
    {
      var i :| 0 <= i < k && sorted[..k][i] == b;
      var m :| 0 <= m < |sorted| && sorted[m] == c;
    }
  }

  /** A prefix of a rearrangement of `s` takes each element of `s` at most as
      often as `s` holds it, and all of `s` when it is the whole sequence. */
  lemma PrefixOfPermutation<T>(s: seq<T>, sorted: seq<T>, k: nat)
    requires multiset(sorted) == multiset(s) && k <= |sorted|
    ensures multiset(sorted[..k]) <= multiset(s)
    ensures k == |sorted| ==> multiset(sorted[..k]) == multiset(s)
    ensures forall x :: x in sorted[..k] ==> x in s
    ensures forall c :: c in s ==> c in sorted
  {
    assert sorted == sorted[..k] + sorted[k..];
    assert multiset(sorted[..k]) <= multiset(s);
    forall x | x in sorted[..k]
      ensures x in s
    {
      assert x in multiset(sorted[..k]);
      assert x in multiset(s);
    }
    forall c | c in s
      ensures c in sorted
    {
      assert c in multiset(s);
    }
  }

  /** `sort(...).slice(0, n)`: the first `n` entries in key order (all of them
      when there are fewer), taken from `s` without repeats beyond its own,
      none later than an entry left out. */
  function SortedTake<T(==)>(s: seq<T>, key: T -> int, n: nat): (r: seq<T>)
    ensures |r| == if |s| < n then |s| else n
    ensures forall x :: x in r ==> x in s
    ensures multiset(r) <= multiset(s)
    ensures |s| <= n ==> multiset(r) == multiset(s)
    ensures SortedBy(r, key)
    ensures forall b, c :: b in r && c in s && c !in r ==> key(b) <= key(c)
  {
    var sorted := SortBy(s, key);
    var k := if |sorted| < n then |sorted| else n;
    SortedPrefixEarliest(sorted, k, key);
    PrefixOfPermutation(s, sorted, k);
    sorted[..k]
  }
}

=== FILE: store.dfy ===
/**
 The record store (AgendaLei/src/utils/asyncStorage.js) with the storage
 I/O taken away: the stored booking and teacher lists are plain sequences,
 and every operation maps the list it read to the list it writes back.
 Fresh ids and creation stamps, which the source takes from the clock, are
 parameters.
 */
module Store {
  import opened Wrappers
  import opened Calendar
  import opened Records
  import opened Seqs

  // ---------------------------------------------------------------------
  // Bookings

  /** `if (booking.id)`: a missing id and the empty string are both falsy. */
  predicate IsTruthyId(id: Option<Id>): (r: bool)
    ensures id.None? ==> !r
    ensures id == Some("") ==> !r
    ensures id.Some? && id.value != "" ==> r
  {
    id.Some? && id.value != ""
  }

  /** The fields of a stored booking that a draft carries. */
  function DraftOf(b: Booking): BookingDraft {
    BookingDraft(Some(b.id), b.teacherId, b.teacherName, b.teacherEmail, b.disciplina,
                 b.className, b.activity, b.numStudents, b.date, b.startTime, b.endTime, b.status)
  }

  /** `{ ...stored, ...draft }`: every field the draft carries wins; the creation
      stamp, which the draft lacks, is kept from the stored record. */
  function MergeBooking(stored: Booking, d: BookingDraft): (r: Booking)
    requires d.id.Some?
    ensures DraftOf(r) == d
    ensures r.createdAt == stored.createdAt
  {
    Booking(d.id.value, d.teacherId, d.teacherName, d.teacherEmail, d.disciplina, d.className,
            d.activity, d.numStudents, d.date, d.startTime, d.endTime, d.status, stored.createdAt)
  }

  /** The record `saveBooking` appends for a draft without an id. */
  function NewBooking(d: BookingDraft, freshId: Id, createdAt: Instant): (r: Booking)
    ensures DraftOf(r) == d.(id := Some(freshId))
    ensures r.id == freshId && r.createdAt == createdAt
  {
    Booking(freshId, d.teacherId, d.teacherName, d.teacherEmail, d.disciplina, d.className,
            d.activity, d.numStudents, d.date, d.startTime, d.endTime, d.status, createdAt)
  }

  /** `saveBooking`: a draft with an id merges into every stored record with
      that id, in place; a draft without one is appended under `freshId`. */
  function SaveBooking(store: seq<Booking>, d: BookingDraft, freshId: Id, createdAt: Instant): (r: seq<Booking>)
    ensures IsTruthyId(d.id) ==>
              && |r| == |store|
              && forall i :: 0 <= i < |store| ==>
                   if store[i].id == d.id.value
                   then DraftOf(r[i]) == d && r[i].createdAt == store[i].createdAt
                   else r[i] == store[i]
    ensures !IsTruthyId(d.id) ==>
              && |r| == |store| + 1 && r[..|store|] == store
              && r[|store|].id == freshId && r[|store|].createdAt == createdAt
              && DraftOf(r[|store|]) == d.(id := Some(freshId))
  {
    if IsTruthyId(d.id) then
      seq(|store|, i requires 0 <= i < |store| =>
        if store[i].id == d.id.value then MergeBooking(store[i], d) else store[i])
    else
      store + [NewBooking(d, freshId, createdAt)]
  }

  /** An update whose id is not stored changes nothing: it never appends. */
  lemma SaveBookingAbsentId(store: seq<Booking>, d: BookingDraft, freshId: Id, createdAt: Instant)
    requires IsTruthyId(d.id)
    requires forall b :: b in store ==> b.id != d.id.value
    ensures SaveBooking(store, d, freshId, createdAt) == store
  {
    var r := SaveBooking(store, d, freshId, createdAt);
    forall i | 0 <= i < |store|
      ensures r[i] == store[i]
    {
      assert store[i] in store;
    }
  }

  /** Saving the same record with an id twice stores what saving it once does. */
  lemma SaveBookingIdempotent(store: seq<Booking>, d: BookingDraft, f1: Id, c1: Instant, f2: Id, c2: Instant)
    requires IsTruthyId(d.id)
    ensures SaveBooking(SaveBooking(store, d, f1, c1), d, f2, c2) == SaveBooking(store, d, f1, c1)
  {
    var once := SaveBooking(store, d, f1, c1);
    var twice := SaveBooking(once, d, f2, c2);
    forall i | 0 <= i < |store|
      ensures twice[i] == once[i]
    {
      if store[i].id == d.id.value {
        assert once[i].id == d.id.value;
      }
    }
  }

  /** `deleteBooking`: drop every record with the id, keep the rest in order. */
  function DeleteBooking(store: seq<Booking>, id: Id): (r: seq<Booking>)
    ensures |r| <= |store|
    ensures forall b :: b in r <==> b in store && b.id != id
  {
    Filter(store, (b: Booking) => b.id != id)
  }

  /** Deleting an id that is not stored is a no-op. */
  lemma DeleteBookingAbsent(store: seq<Booking>, id: Id)
    requires forall b :: b in store ==> b.id != id
    ensures DeleteBooking(store, id) == store
  {
    FilterKeepsAll(store, (b: Booking) => b.id != id);
  }

  /** Deleting twice is deleting once. */
  lemma DeleteBookingIdempotent(store: seq<Booking>, id: Id)
    ensures DeleteBooking(DeleteBooking(store, id), id) == DeleteBooking(store, id)
  {
    DeleteBookingAbsent(DeleteBooking(store, id), id);
  }

  /** Deletion works record by record: the survivors keep their relative order. */
  lemma DeleteBookingAppend(s: seq<Booking>, t: seq<Booking>, id: Id)
    ensures DeleteBooking(s + t, id) == DeleteBooking(s, id) + DeleteBooking(t, id)
  {
    FilterAppend(s, t, (b: Booking) => b.id != id);
  }

  /** Deleting a freshly appended booking by its id undoes the append. */
  lemma DeleteUndoesAppend(store: seq<Booking>, d: BookingDraft, freshId: Id, createdAt: Instant)
    requires !IsTruthyId(d.id)
    requires forall b :: b in store ==> b.id != freshId
    ensures DeleteBooking(SaveBooking(store, d, freshId, createdAt), freshId) == store
  {
    var r := SaveBooking(store, d, freshId, createdAt);
    assert r == store + [r[|store|]];
    DeleteBookingAppend(store, [r[|store|]], freshId);
    DeleteBookingAbsent(store, freshId);
    assert DeleteBooking([r[|store|]], freshId) == [];
  }

  /** `getBookingById`: the first record with the id, if any. */
  function GetBookingById(store: seq<Booking>, id: Id): (r: Option<Booking>)
    ensures r.None? <==> forall b :: b in store ==> b.id != id
    ensures r.Some? ==> r.value.id == id
    ensures r.Some? ==>
              exists i :: 0 <= i < |store| && store[i] == r.value && forall j :: 0 <= j < i ==> store[j].id != id
  {
    Find(store, (b: Booking) => b.id == id)
  }

  /** A booking appended under a fresh id is found by that id. */
  lemma FindAppended(store: seq<Booking>, d: BookingDraft, freshId: Id, createdAt: Instant)
    requires !IsTruthyId(d.id)
    requires forall b :: b in store ==> b.id != freshId
    ensures GetBookingById(SaveBooking(store, d, freshId, createdAt), freshId) == Some(NewBooking(d, freshId, createdAt))
  {
    var r := SaveBooking(store, d, freshId, createdAt);
    var found := GetBookingById(r, freshId);
    assert r[|store|] in r;
    var i :| 0 <= i < |r| && r[i] == found.value && forall j :: 0 <= j < i ==> r[j].id != freshId;
    assert i == |store|;
  }

  /** `getBookingsByTeacher`: exactly that teacher's records, in stored order.
      The list screen applies the same filter to the bookings it loads. */
  function GetBookingsByTeacher(store: seq<Booking>, teacherId: Id): (r: seq<Booking>)
    ensures |r| <= |store|
    ensures forall b :: b in r <==> b in store && b.teacherId == teacherId
  {
    Filter(store, (b: Booking) => b.teacherId == teacherId)
  }

  /** The teacher's list of a concatenation is the concatenation of the lists. */
  lemma GetBookingsByTeacherAppend(s: seq<Booking>, t: seq<Booking>, teacherId: Id)
    ensures GetBookingsByTeacher(s + t, teacherId) == GetBookingsByTeacher(s, teacherId) + GetBookingsByTeacher(t, teacherId)
  {
    FilterAppend(s, t, (b: Booking) => b.teacherId == teacherId);
  }

  // ---------------------------------------------------------------------
  // Teachers

  /** The registration fields of a stored teacher. */
  function ProfileOf(t: Teacher): TeacherProfile {
    TeacherProfile(t.name, t.email, t.disciplina, t.phone)
  }

  /** A teacher is its id, its creation stamp and its profile. */
  lemma TeacherFields(a: Teacher, b: Teacher)
    requires a.id == b.id && a.createdAt == b.createdAt && ProfileOf(a) == ProfileOf(b)
    ensures a == b
  {
  }

  /** `{ ...t, ...profile }`: the profile's fields win, id and creation stamp stay. */
  function MergeTeacher(t: Teacher, p: TeacherProfile): (r: Teacher)
    ensures ProfileOf(r) == p
    ensures r.id == t.id && r.createdAt == t.createdAt
  {
    t.(name := p.name, email := p.email, disciplina := p.disciplina, phone := p.phone)
  }

  /** The in-place half of the upsert: every teacher with the profile's email
      takes the profile's fields; everyone else is left alone. */
  function UpdateTeachers(teachers: seq<Teacher>, p: TeacherProfile): (r: seq<Teacher>)
    ensures |r| == |teachers|
    ensures forall i :: 0 <= i < |teachers| ==> r[i].email == teachers[i].email
    ensures forall i :: 0 <= i < |teachers| ==>
              if teachers[i].email == p.email
              then ProfileOf(r[i]) == p && r[i].id == teachers[i].id && r[i].createdAt == teachers[i].createdAt
              else r[i] == teachers[i]
  {
    seq(|teachers|, i requires 0 <= i < |teachers| =>
      if teachers[i].email == p.email then MergeTeacher(teachers[i], p) else teachers[i])
  }

  /** Updating with a profile every matching teacher already carries changes nothing. */
  lemma UpdateTeachersStable(teachers: seq<Teacher>, p: TeacherProfile)
    requires forall t :: t in teachers && t.email == p.email ==> ProfileOf(t) == p
    ensures UpdateTeachers(teachers, p) == teachers
  {
    var r := UpdateTeachers(teachers, p);
    forall i | 0 <= i < |teachers|
      ensures r[i] == teachers[i]
    {
      if teachers[i].email == p.email {
        assert teachers[i] in teachers;
        TeacherFields(r[i], teachers[i]);
      }
    }
  }

  /** What `saveTeacher` writes back, and the teacher it returns. */
  datatype TeacherSaved = TeacherSaved(teachers: seq<Teacher>, saved: Teacher)

  /** `saveTeacher`: upsert by email. A known email updates every teacher with
      that email in place and returns the merge of the first; a new email
      appends a teacher under `freshId`. */
  function SaveTeacher(teachers: seq<Teacher>, p: TeacherProfile, freshId: Id, createdAt: Instant): (r: TeacherSaved)
    ensures ProfileOf(r.saved) == p
    ensures r.saved in r.teachers
    ensures (exists t :: t in teachers && t.email == p.email) ==>
              && r.teachers == UpdateTeachers(teachers, p)
              && exists t :: t in teachers && t.email == p.email && r.saved.id == t.id
    ensures (forall t :: t in teachers ==> t.email != p.email) ==>
              && r.teachers == teachers + [r.saved]
              && r.saved.id == freshId && r.saved.createdAt == createdAt
  {
    match Find(teachers, (t: Teacher) => t.email == p.email)
    case Some(existing) =>
      var updated := UpdateTeachers(teachers, p);
      var k :| 0 <= k < |teachers| && teachers[k] == existing;
      TeacherFields(updated[k], MergeTeacher(existing, p));
      TeacherSaved(updated, MergeTeacher(existing, p))
    case None =>
      var t := Teacher(freshId, p.name, p.email, p.disciplina, p.phone, createdAt);
      TeacherSaved(teachers + [t], t)
  }

  /** Registering the same profile twice stores what registering it once does. */
  lemma SaveTeacherIdempotent(teachers: seq<Teacher>, p: TeacherProfile, f1: Id, c1: Instant, f2: Id, c2: Instant)
    ensures SaveTeacher(SaveTeacher(teachers, p, f1, c1).teachers, p, f2, c2).teachers
            == SaveTeacher(teachers, p, f1, c1).teachers
  {
    var first := SaveTeacher(teachers, p, f1, c1);
    var once := first.teachers;
    assert first.saved in once && first.saved.email == p.email;
    forall t | t in once && t.email == p.email
      ensures ProfileOf(t) == p
    {
      var i :| 0 <= i < |once| && once[i] == t;
      if exists u :: u in teachers && u.email == p.email {
        assert teachers[i].email == p.email;
      }
    }
    UpdateTeachersStable(once, p);
  }
}

=== FILE: text.dfy ===
/**
 Decimal rendering of integers as JavaScript's `String(n)` produces it, the
 `padStart(2, '0')` used for day and month fields, and the parsers that undo
 them. The parsers exist so that the formatters can be shown injective.
 */
module Text {

  predicate IsDigit(c: char) {
    '0' <= c <= '9'
  }

  predicate AllDigits(s: string) {
    forall i :: 0 <= i < |s| ==> IsDigit(s[i])
  }

  function DigitChar(d: nat): (c: char)
    requires d < 10
    ensures IsDigit(c)
  {
    (('0' as int) + d) as char
  }

  function DigitValue(c: char): (d: nat)
    ensures d < 10
  {
    if IsDigit(c) then (c as int) - ('0' as int) else 0
  }

  lemma DigitRoundTrip(d: nat)
    requires d < 10
    ensures DigitValue(DigitChar(d)) == d
  {
  }

  /** `String(n)` for a non-negative integer: no leading zeros, "0" for zero. */
  function NatToString(n: nat): (s: string)
    ensures 1 <= |s|
    ensures AllDigits(s)
    ensures n < 10 <==> |s| == 1
    ensures 10 <= n < 100 <==> |s| == 2
    ensures 100 <= n < 1000 <==> |s| == 3
    ensures 1000 <= n < 10000 <==> |s| == 4
  {
    if n < 10 then [DigitChar(n)] else NatToString(n / 10) + [DigitChar(n % 10)]
  }

  /** `String(i)` for any integer: a minus sign before the magnitude when negative. */
  function IntToString(i: int): (s: string)
    ensures 1 <= |s|
    ensures s[0] == '-' <==> i < 0
    ensures i < 0 ==> 2 <= |s| && AllDigits(s[1..])
    ensures 0 <= i ==> AllDigits(s)
    ensures 1000 <= i < 10000 ==> |s| == 4
  {
    if i < 0 then "-" + NatToString(-i) else NatToString(i)
  }

  /** `s.padStart(2, '0')`: left-pads with zeros up to two characters, never truncates. */
  function PadStart2(s: string): (r: string)
    ensures |s| >= 2 ==> r == s
    ensures |s| < 2 ==> |r| == 2 && r[2 - |s|..] == s
    ensures forall i :: 0 <= i < 2 - |s| ==> r[i] == '0'
  {
    if |s| >= 2 then s else if |s| == 1 then "0" + s else "00"
  }

  /** Decimal value of a digit string; leading zeros are allowed. */
  function ParseNat(s: string): (n: nat)
  {
    if |s| == 0 then 0 else ParseNat(s[..|s| - 1]) * 10 + DigitValue(s[|s| - 1])
  }

  /** Inverse of `IntToString`. */
  function ParseInt(s: string): (i: int)
  {
    if 0 < |s| && s[0] == '-' then -(ParseNat(s[1..]) as int) else ParseNat(s)
  }

  lemma {:induction false} ParseNatRoundTrip(n: nat)
    ensures ParseNat(NatToString(n)) == n
  {
    if n >= 10 {
      var s := NatToString(n);
      assert s[..|s| - 1] == NatToString(n / 10);
      ParseNatRoundTrip(n / 10);
      DigitRoundTrip(n % 10);
    } else {
      DigitRoundTrip(n);
    }
  }

  lemma ParseIntRoundTrip(i: int)
    ensures ParseInt(IntToString(i)) == i
  {
    if i < 0 {
      var s := IntToString(i);
      assert s[0] == '-' && s[1..] == NatToString(-i);
      ParseNatRoundTrip(-i);
    } else {
      var s := NatToString(i);
      assert IsDigit(s[0]);
      ParseNatRoundTrip(i);
    }
  }

  lemma {:induction false} ParseLeadingZero(s: string)
    requires 1 <= |s|
    ensures ParseNat("0" + s) == ParseNat(s)
  {
    var t := "0" + s;
    if |s| == 1 {
      assert t[..|t| - 1] == "0";
      assert ParseNat("0") == ParseNat("") * 10 + DigitValue('0');
    } else {
      assert t[..|t| - 1] == "0" + s[..|s| - 1];
      ParseLeadingZero(s[..|s| - 1]);
    }
  }

  /** Two-digit zero-padded rendering of 0..99, as `String(n).padStart(2, '0')`. */
  function TwoDigits(n: nat): (r: string)
    requires n < 100
    ensures |r| == 2 && AllDigits(r)
    ensures ParseNat(r) == n
    ensures DigitValue(r[0]) * 10 + DigitValue(r[1]) == n
  {
    var s := NatToString(n);
    ParseNatRoundTrip(n);
    var r := if |s| == 1 then ParseLeadingZero(s); PadStart2(s) else PadStart2(s);
    assert ParseNat(r[..1]) == DigitValue(r[0]) by {
      assert r[..1][..0] == [];
    }
    r
  }
}

=== FILE: wrappers.dfy ===
/** The optional-value type used for JavaScript's `undefined`/`null` results. */
module Wrappers {

  /** `None` stands for a missing value (`undefined` or `null`). */
  datatype Option<+T> = None | Some(value: T)
}
